=== FILE: README.md ===
# Finances — a Dafny model of the budget and transaction core

Finances is an iOS app for monthly budgets. A signed-in user keeps at most one
budget per (month, year) and records income and expense transactions against it.
The dashboard shows how much of the budget is left, how much was spent, and a
progress bar. This project models that core as pure functions over immutable values
and proves what the app promises about it:

- `DataManager` (`data_manager.dfy`) is the record store behind `CoreDataManager`.
  It holds budgets, transactions, a single user record and an identifier counter
  standing in for `UUID()`. The signed-in user id is a parameter (`Option<string>`),
  and `Valid` is the store invariant: identifiers are distinct and fresh, and each
  (user, month, year) has at most one budget.
- `BudgetModel` and `TransactionsModel` are the two view models.
- `Category` holds the transaction categories and types.
- `TransactionForm` is the new-transaction screen, and `BudgetForm` is the budget
  list panel. Each is modelled as form state plus event handlers.
- `Credentials` is the biometric-login credential string and its keychain slot.
- `HexColor` is `UIColor(hex:)` up to the division by 255.
- `UserProfile` is the profile screen's name and picture.
- `Wrappers`, `Seqs`, `Sorting` and `Text` are shared helpers: `Option`, an
  order-preserving filter, a descending sort with a permutation guarantee, and
  split/join/trim on strings.

Money is a Dafny `real`, so the model works in exact arithmetic. Dates are integer
instants. The month and year of "now" and the "is it today" test come from a
`Clock` value or from plain parameters. Parsing a `Double` from text and formatting
currency are function parameters. Reading and writing picture files are parameters
too.

The budget list panel raises the alert "Budget for this month already exists" when
creating a budget fails. The store never fails that way: `createBudget`
overwrites the amount of an existing budget for the period. So the model follows
the code, and `BudgetForm.SaveFailedMeansNoUser` proves that this alert appears
exactly when the form is valid and nobody is signed in.

## Model

| member | source | states |
|---|---|---|
| DataManager.GetCurrentUserBudget | Finances/Services/CoreDataManager.swift:86-112 | With no signed-in user there is no result. A result is a stored budget of that user for that month and year. No result means no such budget exists. |
| DataManager.LookupUnique | Finances/Services/CoreDataManager.swift:97-107 | In a valid store, looking up the period of any stored budget finds exactly that budget. |
| DataManager.CreateBudget | Finances/Services/CoreDataManager.swift:114-141 | With no user it fails and changes nothing. If the period already has a budget, only its amount is overwritten and no record is added. Otherwise one budget with a fresh id and the given user, period, amount and creation time is appended. The lookup afterwards returns the result. Other budgets, transactions and users are untouched, and the store invariant is kept. |
| DataManager.CreateBudgetKeepsOnePerPeriod | Finances/Services/CoreDataManager.swift:122-140 | After an upsert into a valid store, every budget of that user and period is the one returned. |
| DataManager.DeleteBudget | Finances/Services/CoreDataManager.swift:143-147 | Exactly the budgets with other ids remain, and exactly the transactions linked to other budgets remain (the cascade). Users are unchanged and the invariant is kept. |
| DataManager.GetTransactions | Finances/Services/CoreDataManager.swift:151-168 | The result is a permutation of the transactions linked to the budget, ordered by date, newest first. |
| DataManager.CreateTransaction | Finances/Services/CoreDataManager.swift:170-195 | One transaction is appended. It has a fresh id, the given fields, the raw type string "income" or "expense", and a link to the budget. Budgets and users are unchanged and the invariant is kept. |
| DataManager.DeleteTransaction | Finances/Services/CoreDataManager.swift:197-201 | Exactly the transactions with other ids remain; budgets and users are unchanged. |
| DataManager.GetAllUserBudgets | Finances/Services/CoreDataManager.swift:205-224 | With no user the list is empty. Otherwise it is a permutation of that user's budgets, ordered by year descending, then month descending. |
| DataManager.DeleteAllData | Finances/Services/CoreDataManager.swift:226-251 | No budgets and no transactions are left; the user record is kept. |
| DataManager.FetchUser | Finances/Services/CoreDataManager.swift:253-261 | Finds nothing exactly when there is no user record; otherwise finds a stored user. |
| DataManager.UpdateUserProfileImage | Finances/Services/CoreDataManager.swift:263-273 | Afterwards the fetched user is the returned one and carries the filename. An existing id is kept; a missing id, or a newly created user, gets a fresh id, and the id counter advances exactly then. Budgets, transactions and every user record after the first are unchanged, and the invariant is kept. |
| Category.FromRaw | Finances/Models/Entities/TransactionCategory.swift:3-8 | A found category has that raw value; nothing is found only when no category has it. |
| Category.RawValueRoundTrip | Finances/Models/Entities/TransactionCategory.swift:3-8 | Looking up a category's raw value gives back that category. |
| Category.DisplayNamesDistinct | Finances/Models/Entities/TransactionCategory.swift:10-22 | Display names are pairwise distinct. "Bill" is the display name of exactly the category whose raw value is "bills". |
| Category.CategoriesFor | Finances/Models/Entities/TransactionCategory.swift:52-54 | The result holds exactly the categories of that type and is never empty. |
| Category.CategoriesForValues | Finances/Models/Entities/TransactionCategory.swift:25-32 | In declaration order, income offers only Salary, and expense offers Shopping, Gift, Bill and Home. |
| Category.CategoriesPartition | Finances/Models/Entities/TransactionCategory.swift:25-32 | Each category is offered for exactly one of the two types, and for one of them. |
| BudgetModel.TotalOf | Finances/ViewModels/BudgetViewModel.swift:26-27 | The sum over transactions of one type string is 0 when none has that type, and not negative when their amounts are not negative. |
| BudgetModel.OtherTypesIgnored | Finances/ViewModels/BudgetViewModel.swift:26-27 | A transaction whose type string is neither "income" nor "expense" changes neither total. |
| BudgetModel.CreateTransactionMovesTotals | Finances/ViewModels/BudgetViewModel.swift:25-28 | Recording an expense of x raises the used amount by x and lowers the available amount by x. Recording an income of x raises the available amount by x and leaves the used amount alone. |
| BudgetModel.TotalOfSorted | Finances/ViewModels/BudgetViewModel.swift:25-27 | Reordering the transactions by date does not change a total. |
| BudgetModel.FilteredTotal | Finances/ViewModels/BudgetViewModel.swift:25-27 | Summing one type over the transactions filtered to a budget gives the reference total read straight off all store records. |
| BudgetModel.Used | Finances/ViewModels/BudgetViewModel.swift:35-36 | The expenses summed over the fetched, date-sorted list equal the expense amounts of all store records linked to the budget. |
| BudgetModel.Available | Finances/ViewModels/BudgetViewModel.swift:25-28 | The available amount is the budget amount plus the income records minus the expense records linked to the budget in the store. |
| BudgetModel.BudgetAmountText | Finances/ViewModels/BudgetViewModel.swift:22-31 | With no current budget the text is "$ 0.00". Otherwise it is the formatted balance of the budget amount plus the income minus the expenses recorded against that budget in the store. |
| BudgetModel.BudgetUsedText | Finances/ViewModels/BudgetViewModel.swift:33-40 | With no current budget the text is "$ 0.00". Otherwise it is the formatted sum of the expense records linked to that budget in the store. |
| BudgetModel.BudgetLimitText | Finances/ViewModels/BudgetViewModel.swift:42-45 | With no current budget the text is "∞"; otherwise it is the formatted budget amount. |
| BudgetModel.Progress | Finances/ViewModels/BudgetViewModel.swift:48-53 | The value never exceeds 1 and is 0 for a non-positive limit. Otherwise it is 1 exactly when used ≥ limit. Below 1 it is the ratio used/limit, and it is not negative when used is not negative. |
| BudgetModel.ProgressValue | Finances/ViewModels/BudgetViewModel.swift:47-54 | With no current budget the value is 0; otherwise it is the progress of the expenses against the budget amount. |
| BudgetModel.BudgetsCount | Finances/ViewModels/BudgetViewModel.swift:57-59 | The text is non-empty decimal digits without a leading zero (except "0" itself), and its value is the number of listed budgets. |
| BudgetModel.HasBudgets | Finances/ViewModels/BudgetViewModel.swift:61-63 | True exactly when the list is non-empty, which is exactly when the count shown is not "0". |
| BudgetModel.IsBudgetsListEmpty | Finances/ViewModels/BudgetViewModel.swift:65-67 | The negation of hasBudgets: true exactly when the count shown is "0". |
| BudgetModel.LoadCurrentBudget | Finances/ViewModels/BudgetViewModel.swift:69-77 | The empty state holds exactly when no budget exists for this month and year. Otherwise the current budget is the user's budget for that period. |
| BudgetModel.LoadAllBudgets | Finances/ViewModels/BudgetViewModel.swift:101-111 | The list is a permutation of the signed-in user's budget records (each record as often as the store holds it), empty with nobody signed in, ordered by year descending, then month descending. The current budget and empty state are untouched. |
| BudgetModel.LoadedBudgetsDistinct | Finances/ViewModels/BudgetViewModel.swift:101-111 | A list loaded from a valid store never repeats a budget: no two entries share an id or a period. |
| BudgetModel.CreateBudgetForDate | Finances/ViewModels/BudgetViewModel.swift:80-98 | It succeeds exactly when the store returns a budget, and on failure nothing changes. On success the list is reloaded. The current budget is replaced, and the empty state cleared, only when the period is the current month. |
| BudgetModel.CreateBudgetForDateFailsOnlyWithoutUser | Finances/ViewModels/BudgetViewModel.swift:80-98 | It returns false exactly when nobody is signed in. |
| BudgetModel.DeleteBudget | Finances/ViewModels/BudgetViewModel.swift:112-124 | The store deletes the budget, and the first listed budget with that id is removed. The current budget is reloaded only if it was the deleted one. |
| BudgetModel.DeleteCurrentBudgetEmpties | Finances/ViewModels/BudgetViewModel.swift:116-122 | Deleting the current month's budget from a valid store leaves the dashboard in its empty state. |
| TransactionsModel.LoadTransactions | Finances/ViewModels/TransactionsViewModel.swift:27-36 | With no budget the list is empty. Otherwise it is a permutation of the store's records linked to the budget (each as often as the store holds it), newest first. The empty flag equals list emptiness. |
| TransactionsModel.DeleteTransaction | Finances/ViewModels/TransactionsViewModel.swift:38-47 | The store deletes the transaction. Only the first listed transaction with that id is removed, and the rest keep their order. The empty flag equals list emptiness. |
| TransactionsModel.DeleteListedTransaction | Finances/ViewModels/TransactionsViewModel.swift:38-47 | After loading from a valid store, deleting row i removes exactly row i. The record leaves the store and the list shrinks by one. |
| TransactionsModel.TransactionsCount | Finances/ViewModels/TransactionsViewModel.swift:18-20 | The text is non-empty decimal digits without a leading zero (except "0" itself), and its value is the number of listed transactions. |
| TransactionsModel.HasTransactions | Finances/ViewModels/TransactionsViewModel.swift:22-24 | True exactly when the list is non-empty, which is exactly when the count shown is not "0". |
| TransactionForm.IncomeTapped | Finances/Views/Transactions/AddTransactionViewController.swift:359-364 | The type becomes income, the category is cleared, and the picker offers only Salary. |
| TransactionForm.ExpenseTapped | Finances/Views/Transactions/AddTransactionViewController.swift:366-371 | The type becomes expense, the category is cleared, and the picker offers the four expense categories. |
| TransactionForm.CategoryText | Finances/Views/Transactions/AddTransactionViewController.swift:465-467 | The field shows the chosen category's display name, and is empty exactly when no category is chosen. |
| TransactionForm.NumberOfRows | Finances/Views/Transactions/AddTransactionViewController.swift:590-592 | The picker has one row per offered category: 1 for income, 4 otherwise. |
| TransactionForm.TitleForRow | Finances/Views/Transactions/AddTransactionViewController.swift:596-599 | Row i shows the display name of the i-th offered category; with income chosen, the only row shows Salary. |
| TransactionForm.DidSelectRow | Finances/Views/Transactions/AddTransactionViewController.swift:601-605 | The chosen category becomes the one in that row. It has the current type, or expense when none is chosen, and the field shows the row's title. The type and the title, amount and date texts are unchanged. |
| TransactionForm.PickerStartRow | Finances/Views/Transactions/AddTransactionViewController.swift:554-560 | The picker opens on a valid row: the first row holding the chosen category when it is offered, and row 0 when no category is chosen or the chosen one is not offered. |
| TransactionForm.ShouldChangeCharacters | Finances/Views/Transactions/AddTransactionViewController.swift:566-571 | Typing is accepted in the title and amount fields only. |
| TransactionForm.DidEndEditing | Finances/Views/Transactions/AddTransactionViewController.swift:573-583 | Leaving an empty category field picks the first offered category. Leaving an empty date field fills it from the picker. Nothing else changes, and the invariant is kept. |
| TransactionForm.ValidateForm | Finances/Views/Transactions/AddTransactionViewController.swift:514-532 | The form is valid exactly when the title is non-empty, the amount parses after replacing "," by ".", and a category is chosen. The first failing check, in that order, gives the message. |
| TransactionForm.ParseAmount | Finances/Views/Transactions/AddTransactionViewController.swift:521 | Text without a comma reaches the parser as typed. |
| TransactionForm.CommaReadsAsPoint | Finances/Views/Transactions/AddTransactionViewController.swift:521 | Turning any one comma of the amount into a point does not change the parsed amount. |
| TransactionForm.Save | Finances/Views/Transactions/AddTransactionViewController.swift:373-427 | A transaction is saved exactly when the form is valid, this month's budget exists and a type is chosen. The checks run in that order and any failure leaves the store alone. A saved transaction carries the form's values and links to this month's budget. A reminder is attempted exactly for an expense dated today. A save keeps the users, takes a fresh identifier that no stored transaction holds, and keeps the store's integrity invariant. |
| TransactionForm.Step | Finances/Views/Transactions/AddTransactionViewController.swift:359-605 | An event traps exactly when it is a picker row past the offered categories (the `categories[row]` lookup). Every other event keeps a chosen category among the offered ones. |
| TransactionForm.Run | Finances/Views/Transactions/AddTransactionViewController.swift:359-605 | Any sequence of taps, row selections and edits that does not trap keeps a chosen category among the offered ones. |
| TransactionForm.StaleExpenseRowTraps | Finances/Views/Transactions/AddTransactionViewController.swift:359-371 | After an expense tap and then an income tap, any reported row past 0 traps. This includes rows 1, 2 and 3, which a picker still showing the expense list can report. |
| TransactionForm.InvariantAlwaysHolds | Finances/Views/Transactions/AddTransactionViewController.swift:576-604 | From the initial form, after any event sequence that does not trap, a chosen category belongs to the categories for the chosen type, or for expense when none is chosen. |
| BudgetForm.ShouldChangeCharacters | Finances/Views/Dashboard/Components/BudgetsListView.swift:495-502 | The amount field accepts a replacement exactly when all its characters are digits or "."; the month field accepts anything. |
| BudgetForm.ValidateForm | Finances/Views/Dashboard/Components/BudgetsListView.swift:405-417 | The form passes exactly when both fields are non-empty. A missing amount is reported before a missing month. |
| BudgetForm.ParseAmount | Finances/Views/Dashboard/Components/BudgetsListView.swift:383-388 | The amount is accepted exactly when the text, with "$" removed and surrounding white space trimmed, parses to a positive number. |
| BudgetForm.ClearForm | Finances/Views/Dashboard/Components/BudgetsListView.swift:419-422 | Both fields become empty. |
| BudgetForm.ClearedFormAsksForAmount | Finances/Views/Dashboard/Components/BudgetsListView.swift:405-422 | Saving right after clearing reports the missing amount. |
| BudgetForm.Save | Finances/Views/Dashboard/Components/BudgetsListView.swift:379-403 | Validation and amount alerts change nothing. Success happens exactly when both pass and a user is signed in. Then the form is cleared, the store receives the upsert and the list is reloaded from it. For the current month the dashboard leaves its empty state and shows the new budget. The "already exists" alert leaves the view model and store unchanged. Any alert leaves the fields as typed. |
| BudgetForm.SaveFailedMeansNoUser | Finances/Views/Dashboard/Components/BudgetsListView.swift:397-401 | The "already exists" alert appears exactly when the form is valid and nobody is signed in. |
| BudgetForm.EmptyState | Finances/Views/Dashboard/Components/BudgetsListView.swift:440-443 | The empty-state view shows exactly when the table is hidden, which is exactly when the list is empty. |
| BudgetForm.BudgetToDelete | Finances/Views/Dashboard/Components/BudgetsListView.swift:473-477 | The budget handed to the delete callback is the one in the swiped row. |
| BudgetForm.DeleteRowRemovesRow | Finances/Views/Dashboard/Components/BudgetsListView.swift:473-477 | Deleting row i of a freshly loaded list removes exactly row i. |
| Credentials.Encode | Finances/Services/BiometricAuthManager.swift:38 | The string is e-mail, password and name joined by ":"; it has two more ":" than the three fields together. |
| Credentials.Decode | Finances/Services/BiometricAuthManager.swift:75-79 | Decoding succeeds exactly when the string has two ":". A result has three fields free of ":" that encode back to the string. |
| Credentials.DecodeEncode | Finances/Services/BiometricAuthManager.swift:38-77 | Fields without ":" survive encoding and decoding unchanged. |
| Credentials.DecodeEncodeWithSeparator | Finances/Services/BiometricAuthManager.swift:38-77 | If any field contains ":", the encoded string does not decode. |
| Credentials.Save | Finances/Services/BiometricAuthManager.swift:37-54 | Any old entry is deleted first. It reports success exactly when the add succeeds, and then the slot holds the encoded string. |
| Credentials.Delete | Finances/Services/BiometricAuthManager.swift:86-93 | The slot is empty afterwards. |
| Credentials.Load | Finances/Services/BiometricAuthManager.swift:57-83 | All three values are present or none is. They are present exactly when access is granted and the entry decodes, and then they are its decoding. |
| Credentials.SaveThenLoad | Finances/Services/BiometricAuthManager.swift:37-83 | Credentials without ":" that were saved successfully load back unchanged. |
| Credentials.DeleteThenLoad | Finances/Services/BiometricAuthManager.swift:82-93 | After a delete, loading yields nothing. |
| HexColor.HexDigit | Finances/Resources/Constants/Colors.swift:33 | A hexadecimal digit of either case has a value below 16. |
| HexColor.HexRun | Finances/Resources/Constants/Colors.swift:33 | The scan stops at the first character that is not a hexadecimal digit. |
| HexColor.HexValue | Finances/Resources/Constants/Colors.swift:33 | n hexadecimal digits denote a number below 16^n. |
| HexColor.ScanHex | Finances/Resources/Constants/Colors.swift:33 | The scanned value of a string of length n is below 16^n. |
| HexColor.ScanAllDigits | Finances/Resources/Constants/Colors.swift:33 | A string made only of hexadecimal digits scans to the number those digits denote. |
| HexColor.ScanPrefixed | Finances/Resources/Constants/Colors.swift:33 | After a "0x" or "0X" prefix, the scan reads the digits that follow it. |
| HexColor.Rgb12 | Finances/Resources/Constants/Colors.swift:37 | Alpha is 255. Each channel is a multiple of 17 no larger than 255, and the three nibbles rebuild the scanned value. |
| HexColor.Rgb24 | Finances/Resources/Constants/Colors.swift:39 | Alpha is 255. The three channels are bytes, and r·65536 + g·256 + b is the scanned value. |
| HexColor.Argb32 | Finances/Resources/Constants/Colors.swift:41 | The four channels are bytes, and a·2^24 + r·65536 + g·256 + b is the scanned value. |
| HexColor.Components | Finances/Resources/Constants/Colors.swift:30-44 | After trimming non-alphanumerics, lengths 3, 6 and 8 decode to bytes that rebuild the scanned value. Any other length gives (1, 1, 1, 0). |
| HexColor.ThreeDigitChannels | Finances/Resources/Constants/Colors.swift:36-37 | For three hexadecimal digits, alpha is 255 and each channel is its digit times 17. |
| HexColor.SixDigitChannels | Finances/Resources/Constants/Colors.swift:38-39 | For six hexadecimal digits, alpha is 255 and red, green and blue are the bytes written by digit pairs 1-2, 3-4 and 5-6. |
| HexColor.EightDigitChannels | Finances/Resources/Constants/Colors.swift:40-41 | For eight hexadecimal digits, alpha, red, green and blue are the bytes written by digit pairs 1-2, 3-4, 5-6 and 7-8. |
| HexColor.BrandRed | Finances/Resources/Constants/Colors.swift:14 | "#D93A4A" decodes to (255, 0xD9, 0x3A, 0x4A). |
| UserProfile.CurrentUserEmail | Finances/ViewModels/UserProfileViewModel.swift:53-56 | No e-mail address is ever available. |
| UserProfile.LocalPart | Finances/ViewModels/UserProfileViewModel.swift:30 | The result is the prefix of the address before its first "@", or the whole address when it has none. |
| UserProfile.LoadUserName | Finances/ViewModels/UserProfileViewModel.swift:24-33 | A non-empty saved name is shown verbatim. Otherwise an address gives the capitalised part before its first "@". Otherwise the name is unchanged. The picture is untouched. |
| UserProfile.LoadedNameWithoutEmail | Finances/ViewModels/UserProfileViewModel.swift:16-33 | Starting from "User", the name after loading is the saved name when that is non-empty, and "User" otherwise. |
| UserProfile.LoadProfileImage | Finances/ViewModels/UserProfileViewModel.swift:35-43 | The stored user's picture is shown when it can be read; otherwise the person symbol is shown. |
| UserProfile.LoadUserData | Finances/ViewModels/UserProfileViewModel.swift:19-22 | Loading combines the name rule and the picture rule. |
| UserProfile.UpdateProfileImage | Finances/ViewModels/UserProfileViewModel.swift:45-50 | A failed disk write changes nothing. Otherwise the user record points at the new file and the screen shows the new picture. |
| UserProfile.UpdateThenLoad | Finances/ViewModels/UserProfileViewModel.swift:35-50 | Given a file that reads back as the saved picture, the next load shows it. This proves only that the filename is wired through. Whether the lossy JPEG write reads back the same picture is an assumption. |

## Left out

- Firebase authentication (sign-in, account creation, `Auth.auth()`): the signed-in user id is a parameter.
- The Core Data stack (`persistentContainer`, `saveContext`, fetch errors): the store is an in-memory value, and fetch and save failures are not modelled.
- Core Data's Int16 storage of month and year: month and year are unbounded integers.
- The transaction-to-budget delete rule: it sits in the data model file, which is not part of this model. `DataManager.DeleteBudget` cascades, as the doc comment on `deleteBudget` says.
- Records are values identified by their `id`. Core Data's object identity is not modelled, and neither is a view model holding an object that the store has since changed.
- `DataManager.GetTransactions`, `DataManager.GetAllUserBudgets`: Core Data does not specify the order of records with equal sort keys. The model sorts stably.
- `BudgetModel.LoadAllBudgets`: Swift's `sort` is not stable, but the model's is. Since the store already returns year/month order, the model keeps the list as fetched.
- `DataManager.FetchUser`, `DataManager.GetCurrentUserBudget`: both take the first match in store order. Core Data does not specify the order of an unsorted fetch. In a valid store the budget lookup has at most one match, and the app keeps a single user record.
- `UUID()`: replaced by a store counter, so fresh ids are provable.
- `Date()` and `Calendar`: the current month, year and "same day" test are inputs.
- Floating point: money is exact `real`. Double/Float rounding, `Float(...)` and the final division by 255 in `UIColor(hex:)` are not modelled.
- `Double(String)` parsing, `NumberFormatter` currency text, `DateFormatter` month names and `capitalized`: these are function parameters.
- `HexColor.IsAlphanumeric`: only ASCII letters and digits count. Foundation's alphanumeric set also includes other Unicode letters and digits.
- `HexColor.Components`: Swift's `count` of the trimmed string counts grapheme clusters, and the model counts code points. The two agree on the ASCII strings the app passes in.
- `HexColor.ScanHex`: the 64-bit overflow of `scanHexInt64` is not modelled, because trimmed lengths 3, 6 and 8 stay far below it.
- Biometrics: `LAContext`, access control, keychain status codes and the UTF-8 round trip are left out. The keychain is one optional slot, and its success and access results are parameters.
- The keyboard and date-picker plumbing of the budget list (`updateDateTextField`, `dismissKeyboard`) is left out. The month text is an input.
- `NotificationManager` is asynchronous and talks to the system notification centre. The model records only whether a reminder was attempted.
- Image encoding and file I/O in the profile view model: whether a write succeeded, and what a read returns, are parameters.
- Layout, fonts, colours other than the hex decoding, animation, navigation, Combine bindings and main-queue dispatch are left out.

=== FILE: budget_form.dfy ===
/** The budget list screen's form and table (Finances/Views/Dashboard/Components/BudgetsListView.swift):
    the amount keystroke filter, validation, the save decision, clearing, the empty state
    and the row-delete mapping. */
module BudgetForm {
  import opened Wrappers
  import opened DataManager
  import BudgetModel
  import Text

  datatype Field = ValueField | DateField

  /** The text of the amount field and of the month field (filled from the date picker). */
  datatype Form = Form(valueText: Option<string>, dateText: Option<string>)

  datatype Alert = Alert(title: string, message: string)

  const AmountCharacters: string := "0123456789."

  /** Every character of `s` is one of `allowed`. */
  predicate AllIn(s: string, allowed: string)
  {
    forall k :: 0 <= k < |s| ==> s[k] in allowed
  }

  /** `textField(_:shouldChangeCharactersIn:replacementString:)`: the amount field takes
      only digits and points; the month field takes any edit. */
  function ShouldChangeCharacters(field: Field, replacement: string): (r: bool)
    ensures field == DateField ==> r
    ensures field == ValueField ==> (r <==> forall k :: 0 <= k < |replacement| ==> '0' <= replacement[k] <= '9' || replacement[k] == '.')
  {
    field != ValueField || AllIn(replacement, AmountCharacters)
  }

  const MissingAmount: Alert := Alert("Missing Information", "Please enter a budget amount")
  const MissingMonth: Alert := Alert("Missing Information", "Please select a month")
  const InvalidAmount: Alert := Alert("Invalid Amount", "Please enter a valid amount greater than 0")
  const SaveFailed: Alert := Alert("Error", "Budget for this month already exists")

  /** `validateForm()`: the amount is checked before the month. */
  function ValidateForm(f: Form): (r: Option<Alert>)
    ensures r.None? <==> Text.Filled(f.valueText) && Text.Filled(f.dateText)
    ensures !Text.Filled(f.valueText) ==> r == Some(MissingAmount)
    ensures Text.Filled(f.valueText) && !Text.Filled(f.dateText) ==> r == Some(MissingMonth)
  {
    if !Text.Filled(f.valueText) then Some(MissingAmount)
    else if !Text.Filled(f.dateText) then Some(MissingMonth)
    else None
  }

  /** Unicode white space, as trimmed by `.whitespacesAndNewlines`. */
  predicate IsWhitespace(c: char)
  {
    || ('\U{9}' <= c <= '\U{D}') || c == '\U{20}' || c == '\U{85}' || c == '\U{A0}' || c == '\U{1680}'
    || ('\U{2000}' <= c <= '\U{200A}') || c == '\U{2028}' || c == '\U{2029}' || c == '\U{202F}'
    || c == '\U{205F}' || c == '\U{3000}'
  }

  function WhitespaceTest(): char -> bool
  {
    c => IsWhitespace(c)
  }

  /** The amount typed: dollar signs removed, surrounding white space trimmed, parsed by
      `parseDouble`, and accepted only when positive. */
  function ParseAmount(text: string, parseDouble: string -> Option<real>): (r: Option<real>)
    ensures r.Some? ==> r.value > 0.0
    ensures r.Some? <==> (var p := parseDouble(Text.Trim(Text.Remove(text, '$'), WhitespaceTest())); p.Some? && p.value > 0.0)
  {
    match parseDouble(Text.Trim(Text.Remove(text, '$'), WhitespaceTest()))
    case Some(amount) => if amount > 0.0 then Some(amount) else None
    case None => None
  }

  /** `clearForm()`. */
  function ClearForm(f: Form): (r: Form)
    ensures !Text.Filled(r.valueText) && !Text.Filled(r.dateText)
    ensures r.valueText.Some? && r.dateText.Some?
  {
    Form(Some(""), Some(""))
  }

  /** A cleared form is refused by the next save for its missing amount. */
  lemma ClearedFormAsksForAmount(f: Form)
    ensures ValidateForm(ClearForm(f)) == Some(MissingAmount)
  {
  }

  datatype SaveResult = SaveResult(form: Form, vm: BudgetModel.BudgetVM, st: Store, alert: Option<Alert>)

  /** `saveButtonTapped()`. `month`/`year` are the calendar components of the date picked. */
  function Save(f: Form, vm: BudgetModel.BudgetVM, st: Store, auth: Option<string>,
                parseDouble: string -> Option<real>, month: int, year: int, clock: BudgetModel.Clock)
    : (r: SaveResult)
    ensures ValidateForm(f).Some? ==> r == SaveResult(f, vm, st, ValidateForm(f))
    ensures ValidateForm(f).None? && ParseAmount(f.valueText.value, parseDouble).None? ==>
      r == SaveResult(f, vm, st, Some(InvalidAmount))
    ensures r.alert.None? <==>
      ValidateForm(f).None? && ParseAmount(f.valueText.value, parseDouble).Some? && auth.Some?
    ensures r.alert.None? ==> r.form == ClearForm(f)
    ensures r.alert.None? ==> r.st == CreateBudget(st, auth, ParseAmount(f.valueText.value, parseDouble).value, month, year, clock.now).0
    ensures r.alert.Some? ==> r.form == f
    ensures r.alert == Some(SaveFailed) ==> r.vm == vm && r.st == st
    ensures r.alert.None? ==> r.vm.budgets == BudgetModel.LoadAllBudgets(vm, r.st, auth).budgets
    ensures r.alert.None? && month == clock.month && year == clock.year ==>
      !r.vm.isInEmptyState && r.vm.currentBudget == GetCurrentUserBudget(r.st, auth, month, year)
    ensures !(month == clock.month && year == clock.year) ==>
      r.vm.currentBudget == vm.currentBudget && r.vm.isInEmptyState == vm.isInEmptyState
  {
    match ValidateForm(f)
    case Some(alert) => SaveResult(f, vm, st, Some(alert))
    case None =>
      match ParseAmount(f.valueText.value, parseDouble)
      case None => SaveResult(f, vm, st, Some(InvalidAmount))
      case Some(amount) =>
        var (vm', st', ok) := BudgetModel.CreateBudgetForDate(vm, st, auth, amount, month, year, clock);
        if ok then SaveResult(ClearForm(f), vm', st', None)
        else SaveResult(f, vm', st', Some(SaveFailed))
  }

  /** The "already exists" alert is raised exactly when the form is valid and nobody is
      signed in: an existing budget for the month is overwritten instead. */
  lemma SaveFailedMeansNoUser(f: Form, vm: BudgetModel.BudgetVM, st: Store, auth: Option<string>,
                              parseDouble: string -> Option<real>, month: int, year: int, clock: BudgetModel.Clock)
    ensures Save(f, vm, st, auth, parseDouble, month, year, clock).alert == Some(SaveFailed) <==>
      ValidateForm(f).None? && ParseAmount(f.valueText.value, parseDouble).Some? && auth.None?
  {
  }

  /** Which of the empty-state view and the table is hidden. */
  datatype Visibility = Visibility(emptyStateHidden: bool, tableHidden: bool)

  /** `updateEmptyState(isEmpty:)`, fed with `isBudgetsListEmpty`. */
  function EmptyState(vm: BudgetModel.BudgetVM): (r: Visibility)
    ensures !r.emptyStateHidden <==> r.tableHidden
    ensures r.tableHidden <==> |vm.budgets| == 0
  {
    var isEmpty := BudgetModel.IsBudgetsListEmpty(vm);
    Visibility(!isEmpty, isEmpty)
  }

  /** `tableView(_:commit:forRowAt:)`: the budget handed to the delete callback. */
  function BudgetToDelete(vm: BudgetModel.BudgetVM, row: nat): (r: Budget)
    requires row < |vm.budgets|
    ensures r in vm.budgets
    ensures r == vm.budgets[row]
  {
    vm.budgets[row]
  }

  /** Deleting row `i` of a list loaded from a valid store removes exactly that row. */
  lemma DeleteRowRemovesRow(vm: BudgetModel.BudgetVM, st: Store, auth: Option<string>, clock: BudgetModel.Clock, i: nat)
    requires Valid(st)
    requires vm == BudgetModel.LoadAllBudgets(vm, st, auth)
    requires i < |vm.budgets|
    ensures BudgetModel.DeleteBudget(vm, st, auth, BudgetToDelete(vm, i), clock).0.budgets
      == vm.budgets[..i] + vm.budgets[i + 1..]
  {
    BudgetModel.LoadedBudgetsDistinct(vm, st, auth);
    BudgetModel.RemoveListedBudget(vm.budgets, i);
  }
}

=== FILE: budget_model.dfy ===
/** The dashboard and budget-list view model (Finances/ViewModels/BudgetViewModel.swift):
    the current month's budget with its available, used and progress figures, and the
    user's budget list. Money is `real`; currency formatting is a parameter. */
module BudgetModel {
  import opened Wrappers
  import opened DataManager
  import Category
  import Seqs
  import Sorting
  import Text

  /** The moment an action runs, with the calendar month and year it falls in. */
  datatype Clock = Clock(now: Date, month: int, year: int)

  datatype BudgetVM = BudgetVM(currentBudget: Option<Budget>, isInEmptyState: bool, budgets: seq<Budget>)

  const Initial: BudgetVM := BudgetVM(None, true, [])

  /** The sum of the amounts of the transactions whose type string is `kind`; other
      transactions contribute nothing. */
  function TotalOf(ts: seq<Transaction>, kind: string): (r: real)
    ensures (forall t :: t in ts && t.txType == kind ==> t.amount >= 0.0) ==> r >= 0.0
    ensures (forall t :: t in ts ==> t.txType != kind) ==> r == 0.0
    decreases |ts|
  {
    if |ts| == 0 then 0.0
    else (if ts[0].txType == kind then ts[0].amount else 0.0) + TotalOf(ts[1..], kind)
  }

  const ExpenseRaw: string := Category.TypeRaw(Category.Expense)
  const IncomeRaw: string := Category.TypeRaw(Category.Income)

  /** Reference total read straight off the store's records: the amounts of every
      transaction linked to budget `id` whose type string is `kind`. */
  function RecordedTotal(ts: seq<Transaction>, id: Id, kind: string): real
    decreases |ts|
  {
    if |ts| == 0 then 0.0
    else (if ts[0].budgetId == id && ts[0].txType == kind then ts[0].amount else 0.0)
         + RecordedTotal(ts[1..], id, kind)
  }

  /** Total expenses recorded against `b`, read through the date-sorted fetch. */
  function Used(st: Store, b: Budget): (r: real)
    ensures r == RecordedTotal(st.transactions, b.id, ExpenseRaw)
  {
    LinkedTotal(st, b, ExpenseRaw);
    FilteredTotal(st.transactions, b.id, ExpenseRaw);
    TotalOf(GetTransactions(st, b), ExpenseRaw)
  }

  /** What is left of a budget of `amount`: the amount plus income minus expenses. */
  function Balance(amount: real, income: real, expenses: real): real
  {
    (amount + income) - expenses
  }

  /** What is left of `b` once its recorded income and expenses are counted. */
  function Available(st: Store, b: Budget): (r: real)
    ensures r == Balance(b.amount, RecordedTotal(st.transactions, b.id, IncomeRaw),
                         RecordedTotal(st.transactions, b.id, ExpenseRaw))
  {
    LinkedTotal(st, b, IncomeRaw);
    FilteredTotal(st.transactions, b.id, IncomeRaw);
    Balance(b.amount, TotalOf(GetTransactions(st, b), IncomeRaw), Used(st, b))
  }

  /** `budgetAmount`. */
  function BudgetAmountText(vm: BudgetVM, st: Store, formatCurrency: real -> string): (r: string)
    ensures vm.currentBudget.None? ==> r == "$ 0.00"
    ensures vm.currentBudget.Some? ==>
      var b := vm.currentBudget.value;
      r == formatCurrency(Balance(b.amount, RecordedTotal(st.transactions, b.id, IncomeRaw),
                                  RecordedTotal(st.transactions, b.id, ExpenseRaw)))
  {
    if vm.currentBudget.None? then "$ 0.00"
    else formatCurrency(Available(st, vm.currentBudget.value))
  }

  /** `budgetUsed`. */
  function BudgetUsedText(vm: BudgetVM, st: Store, formatCurrency: real -> string): (r: string)
    ensures vm.currentBudget.None? ==> r == "$ 0.00"
    ensures vm.currentBudget.Some? ==> r == formatCurrency(RecordedTotal(st.transactions, vm.currentBudget.value.id, ExpenseRaw))
  {
    match vm.currentBudget
    case None => "$ 0.00"
    case Some(b) => formatCurrency(Used(st, b))
  }

  /** `budgetLimit`. */
  function BudgetLimitText(vm: BudgetVM, formatCurrency: real -> string): (r: string)
    ensures vm.currentBudget.None? ==> r == "∞"
    ensures vm.currentBudget.Some? ==> r == formatCurrency(vm.currentBudget.value.amount)
  {
    match vm.currentBudget
    case None => "∞"
    case Some(b) => formatCurrency(b.amount)
  }

  /** The used share of a limit, capped at 1; 0 when the limit is not positive. */
  function Progress(used: real, limit: real): (r: real)
    ensures r <= 1.0
    ensures limit <= 0.0 ==> r == 0.0
    ensures limit > 0.0 ==>
      && (r == 1.0 <==> used >= limit)
      && (r < 1.0 ==> r * limit == used)
      && (used >= 0.0 ==> r >= 0.0)
  {
    if limit <= 0.0 then 0.0
    else
      RatioFacts(used, limit);
      var ratio := used / limit;
      if ratio < 1.0 then ratio else 1.0
  }

  lemma RatioFacts(used: real, limit: real)
    requires limit > 0.0
    ensures used / limit < 1.0 <==> used < limit
    ensures (used / limit) * limit == used
    ensures used >= 0.0 ==> used / limit >= 0.0
  {
    var q := used / limit;
    assert q * limit == used;
    assert q < 1.0 ==> (1.0 - q) * limit > 0.0;
    assert q >= 1.0 ==> (q - 1.0) * limit >= 0.0;
    assert q < 0.0 ==> (0.0 - q) * limit > 0.0;
  }

  /** `progressValue`: 0 without a current budget, otherwise the expenses' share of the
      budget amount, capped at 1. */
  function ProgressValue(vm: BudgetVM, st: Store): (r: real)
    ensures r <= 1.0
    ensures vm.currentBudget.None? ==> r == 0.0
    ensures vm.currentBudget.Some? ==> r == Progress(Used(st, vm.currentBudget.value), vm.currentBudget.value.amount)
  {
    match vm.currentBudget
    case None => 0.0
    case Some(b) => Progress(Used(st, b), b.amount)
  }

  /** `budgetsCount`: the list length in decimal, without leading zeros. */
  function BudgetsCount(vm: BudgetVM): (r: string)
    ensures |r| > 0 && forall k :: 0 <= k < |r| ==> Text.IsDigit(r[k])
    ensures r[0] == '0' ==> r == "0"
    ensures Text.DecimalValue(r) == |vm.budgets|
  {
    Text.Decimal(|vm.budgets|)
  }

  /** `hasBudgets`: the count shown is not "0". */
  function HasBudgets(vm: BudgetVM): (r: bool)
    ensures r <==> BudgetsCount(vm) != "0"
    ensures r <==> vm.budgets != []
  {
    |vm.budgets| > 0
  }

  /** `isBudgetsListEmpty`: the opposite of `hasBudgets`. */
  function IsBudgetsListEmpty(vm: BudgetVM): (r: bool)
    ensures r <==> !HasBudgets(vm)
    ensures r <==> BudgetsCount(vm) == "0"
  {
    |vm.budgets| == 0
  }

  /** `loadCurrentBudget()`: look up this month's budget; the empty state shows exactly
      when there is none. */
  function LoadCurrentBudget(vm: BudgetVM, st: Store, auth: Option<string>, clock: Clock): (r: BudgetVM)
    ensures r.isInEmptyState <==> r.currentBudget.None?
    ensures r.isInEmptyState <==>
      auth.None? || forall b :: b in st.budgets ==> !ForPeriod(b, auth.value, clock.month, clock.year)
    ensures r.currentBudget.Some? ==>
      r.currentBudget.value in st.budgets && ForPeriod(r.currentBudget.value, auth.value, clock.month, clock.year)
    ensures r.budgets == vm.budgets
  {
    var current := GetCurrentUserBudget(st, auth, clock.month, clock.year);
    vm.(currentBudget := current, isInEmptyState := current.None?)
  }

  /** `loadAllBudgets()`: the user's budgets, year then month descending. */
  function LoadAllBudgets(vm: BudgetVM, st: Store, auth: Option<string>): (r: BudgetVM)
    ensures forall b :: b in r.budgets <==> b in st.budgets && auth.Some? && b.userId == auth.value
    ensures forall i, j :: 0 <= i < j < |r.budgets| ==>
      r.budgets[i].year > r.budgets[j].year
      || (r.budgets[i].year == r.budgets[j].year && r.budgets[i].month >= r.budgets[j].month)
    ensures auth.Some? ==> multiset(r.budgets) == multiset(Seqs.Filter(st.budgets, OwnedBy(auth.value)))
    ensures r.currentBudget == vm.currentBudget && r.isInEmptyState == vm.isInEmptyState
  {
    var fetched := GetAllUserBudgets(st, auth);
    assert Sorting.SortedDesc(fetched, BudgetKey);
    Sorting.SortDescOfSorted(fetched, BudgetKey);
    vm.(budgets := Sorting.SortDesc(fetched, BudgetKey))
  }

  /** A list loaded from a valid store holds one entry per budget record: no two entries
      share an id or a period. */
  lemma LoadedBudgetsDistinct(vm: BudgetVM, st: Store, auth: Option<string>)
    requires Valid(st)
    ensures Seqs.Pairwise(LoadAllBudgets(vm, st, auth).budgets, DistinctBudgets)
  {
    if auth.Some? {
      var owned := Seqs.Filter(st.budgets, OwnedBy(auth.value));
      Seqs.FilterPairwise(st.budgets, OwnedBy(auth.value), DistinctBudgets);
      Sorting.SortDescPairwise(owned, BudgetKey, DistinctBudgets);
      var fetched := Sorting.SortDesc(owned, BudgetKey);
      assert fetched == GetAllUserBudgets(st, auth);
      Sorting.SortDescPairwise(fetched, BudgetKey, DistinctBudgets);
    }
  }

  /** `createBudgetForDate(amount:month:year:)`: upsert through the store; on success
      refresh the list, and make the budget current when it is for this month. */
  function CreateBudgetForDate(vm: BudgetVM, st: Store, auth: Option<string>, amount: real,
                               month: int, year: int, clock: Clock): (r: (BudgetVM, Store, bool))
    ensures r.2 <==> CreateBudget(st, auth, amount, month, year, clock.now).1.Some?
    ensures !r.2 ==> r.0 == vm && r.1 == st
    ensures r.1 == CreateBudget(st, auth, amount, month, year, clock.now).0
    ensures r.2 ==> r.0.budgets == LoadAllBudgets(vm, r.1, auth).budgets
    ensures r.2 && month == clock.month && year == clock.year ==>
      && !r.0.isInEmptyState
      && r.0.currentBudget == GetCurrentUserBudget(r.1, auth, month, year)
      && r.0.currentBudget.Some? && r.0.currentBudget.value.amount == amount
    ensures !(month == clock.month && year == clock.year) ==>
      r.0.currentBudget == vm.currentBudget && r.0.isInEmptyState == vm.isInEmptyState
  {
    var (st', created) := CreateBudget(st, auth, amount, month, year, clock.now);
    match created
    case None => (vm, st, false)
    case Some(b) =>
      var listed := LoadAllBudgets(vm, st', auth);
      if month == clock.month && year == clock.year then
        (listed.(currentBudget := Some(b), isInEmptyState := false), st', true)
      else (listed, st', true)
  }

  /** The view model reports failure only when nobody is signed in; an existing budget
      for the period is overwritten, never refused. */
  lemma CreateBudgetForDateFailsOnlyWithoutUser(vm: BudgetVM, st: Store, auth: Option<string>, amount: real,
                                                month: int, year: int, clock: Clock)
    ensures !CreateBudgetForDate(vm, st, auth, amount, month, year, clock).2 <==> auth.None?
  {
  }

  /** `deleteBudget(_:completion:)`: delete in the store, drop the first local budget with
      the same id, and reload the current budget only if it was the one deleted. */
  function DeleteBudget(vm: BudgetVM, st: Store, auth: Option<string>, b: Budget, clock: Clock)
    : (r: (BudgetVM, Store))
    ensures r.1 == DataManager.DeleteBudget(st, b)
    ensures r.0.budgets == Seqs.RemoveFirst(vm.budgets, IdIs(b.id))
    ensures vm.currentBudget.Some? && vm.currentBudget.value.id == b.id ==>
      r.0.currentBudget == GetCurrentUserBudget(r.1, auth, clock.month, clock.year)
      && (r.0.isInEmptyState <==> r.0.currentBudget.None?)
    ensures !(vm.currentBudget.Some? && vm.currentBudget.value.id == b.id) ==>
      r.0.currentBudget == vm.currentBudget && r.0.isInEmptyState == vm.isInEmptyState
  {
    var st' := DataManager.DeleteBudget(st, b);
    var vm' := vm.(budgets := Seqs.RemoveFirst(vm.budgets, IdIs(b.id)));
    if vm.currentBudget.Some? && vm.currentBudget.value.id == b.id then
      (LoadCurrentBudget(vm', st', auth, clock), st')
    else (vm', st')
  }

  /** In a list without repeated ids, removing the first entry with the id of entry `i`
      removes entry `i`. */
  lemma RemoveListedBudget(bs: seq<Budget>, i: nat)
    requires Seqs.Pairwise(bs, DistinctBudgets)
    requires i < |bs|
    ensures Seqs.RemoveFirst(bs, IdIs(bs[i].id)) == bs[..i] + bs[i + 1..]
  {
    forall j | 0 <= j < i ensures !IdIs(bs[i].id)(bs[j]) {
      assert DistinctBudgets(bs[j], bs[i]);
    }
    Seqs.FirstIndexAt(bs, IdIs(bs[i].id), i);
  }

  /** Deleting the current budget leaves the dashboard empty: the store holds no other
      budget for this month. */
  lemma DeleteCurrentBudgetEmpties(vm: BudgetVM, st: Store, auth: Option<string>, clock: Clock)
    requires Valid(st)
    requires vm.currentBudget.Some? && vm.currentBudget == GetCurrentUserBudget(st, auth, clock.month, clock.year)
    ensures DeleteBudget(vm, st, auth, vm.currentBudget.value, clock).0.isInEmptyState
  {
    var b := vm.currentBudget.value;
    var st' := DataManager.DeleteBudget(st, b);
    forall x | x in st'.budgets
      ensures !ForPeriod(x, auth.value, clock.month, clock.year)
    {
      assert x in st.budgets && x.id != b.id;
      var i :| 0 <= i < |st.budgets| && st.budgets[i] == x;
      var j :| 0 <= j < |st.budgets| && st.budgets[j] == b;
      assert i != j;
      if i < j {
        assert DistinctBudgets(st.budgets[i], st.budgets[j]);
      } else {
        assert DistinctBudgets(st.budgets[j], st.budgets[i]);
      }
    }
  }

  lemma {:induction false} TotalOfAppend(a: seq<Transaction>, b: seq<Transaction>, kind: string)
    ensures TotalOf(a + b, kind) == TotalOf(a, kind) + TotalOf(b, kind)
    decreases |a|
  {
    if |a| == 0 {
      assert a + b == b;
    } else {
      assert (a + b)[1..] == a[1..] + b;
      TotalOfAppend(a[1..], b, kind);
    }
  }

  lemma {:induction false} TotalOfInsert(x: Transaction, s: seq<Transaction>, key: Transaction -> Sorting.Key, kind: string)
    requires Sorting.SortedDesc(s, key)
    ensures TotalOf(Sorting.Insert(x, s, key), kind) == TotalOf([x], kind) + TotalOf(s, kind)
    decreases |s|
  {
    if |s| > 0 && !Sorting.AtLeast(key(x), key(s[0])) {
      assert Sorting.SortedDesc(s[1..], key) by {
        forall i, j | 0 <= i < j < |s[1..]| ensures Sorting.AtLeast(key(s[1..][i]), key(s[1..][j])) {
          assert s[1..][i] == s[i + 1] && s[1..][j] == s[j + 1];
        }
      }
      TotalOfInsert(x, s[1..], key, kind);
      var rest := Sorting.Insert(x, s[1..], key);
      assert ([s[0]] + rest)[1..] == rest;
    } else if |s| > 0 {
      assert ([x] + s)[1..] == s;
    }
  }

  /** Totals do not depend on the order the store lists transactions in. */
  lemma {:induction false} TotalOfSorted(s: seq<Transaction>, key: Transaction -> Sorting.Key, kind: string)
    ensures TotalOf(Sorting.SortDesc(s, key), kind) == TotalOf(s, kind)
    decreases |s|
  {
    if |s| > 0 {
      TotalOfSorted(s[1..], key, kind);
      TotalOfInsert(s[0], Sorting.SortDesc(s[1..], key), key, kind);
    }
  }

  /** The totals of `b` read from the store's records linked to it. */
  lemma LinkedTotal(st: Store, b: Budget, kind: string)
    ensures TotalOf(GetTransactions(st, b), kind) == TotalOf(Seqs.Filter(st.transactions, LinkedTo(b.id)), kind)
  {
    TotalOfSorted(Seqs.Filter(st.transactions, LinkedTo(b.id)), TxKey, kind);
  }

  /** Recording an expense of `amount` against `b` lowers what is available by that
      amount and raises what is used by it; an income raises what is available and
      leaves what is used alone. */
  lemma CreateTransactionMovesTotals(st: Store, title: string, amount: real, category: string,
                                     txType: Category.TxType, date: Date, b: Budget)
    ensures var st' := CreateTransaction(st, title, amount, category, txType, date, b).0;
      && (txType == Category.Expense ==> Used(st', b) == Used(st, b) + amount
                                         && Available(st', b) == Available(st, b) - amount)
      && (txType == Category.Income ==> Used(st', b) == Used(st, b)
                                        && Available(st', b) == Available(st, b) + amount)
  {
    var (st', t) := CreateTransaction(st, title, amount, category, txType, date, b);
    RecordedAppend(st.transactions, t.value, b.id, ExpenseRaw);
    RecordedAppend(st.transactions, t.value, b.id, IncomeRaw);
  }

  /** The fetched, filtered total agrees with the reference total over all records. */
  lemma {:induction false} FilteredTotal(ts: seq<Transaction>, id: Id, kind: string)
    ensures TotalOf(Seqs.Filter(ts, LinkedTo(id)), kind) == RecordedTotal(ts, id, kind)
    decreases |ts|
  {
    if |ts| > 0 {
      FilteredTotal(ts[1..], id, kind);
      var rest := Seqs.Filter(ts[1..], LinkedTo(id));
      if LinkedTo(id)(ts[0]) {
        assert Seqs.Filter(ts, LinkedTo(id)) == [ts[0]] + rest;
        assert ([ts[0]] + rest)[1..] == rest;
      }
    }
  }

  lemma {:induction false} RecordedAppend(ts: seq<Transaction>, t: Transaction, id: Id, kind: string)
    ensures RecordedTotal(ts + [t], id, kind)
         == RecordedTotal(ts, id, kind) + (if t.budgetId == id && t.txType == kind then t.amount else 0.0)
    decreases |ts|
  {
    if |ts| == 0 {
      assert ts + [t] == [t];
    } else {
      assert (ts + [t])[1..] == ts[1..] + [t];
      RecordedAppend(ts[1..], t, id, kind);
    }
  }

  /** A transaction whose type string is neither "income" nor "expense" moves neither
      total. */
  lemma OtherTypesIgnored(ts: seq<Transaction>, t: Transaction)
    requires t.txType != IncomeRaw && t.txType != ExpenseRaw
    ensures TotalOf(ts + [t], IncomeRaw) == TotalOf(ts, IncomeRaw)
    ensures TotalOf(ts + [t], ExpenseRaw) == TotalOf(ts, ExpenseRaw)
  {
    TotalOfAppend(ts, [t], IncomeRaw);
    TotalOfAppend(ts, [t], ExpenseRaw);
  }
}

=== FILE: category.dfy ===
/** Transaction types and the fixed set of transaction categories, each tied to a type.
    (Finances/Services/CoreDataManager.swift `TransactionType`,
    Finances/Models/Entities/TransactionCategory.swift.) */
module Category {
  import opened Wrappers
  import Seqs

  datatype TxType = Income | Expense

  /** The string stored in a transaction record's `type` attribute. */
  function TypeRaw(t: TxType): string
  {
    match t
    case Income => "income"
    case Expense => "expense"
  }

  /** Declared in the order `allCases` lists them. */
  datatype Category = Salario | Compras | Presente | Contas | Moradia

  const AllCases: seq<Category> := [Salario, Compras, Presente, Contas, Moradia]

  /** The string stored in a transaction record's `category` attribute. */
  function RawValue(c: Category): string
  {
    match c
    case Salario => "salary"
    case Compras => "shopping"
    case Presente => "gift"
    case Contas => "bills"
    case Moradia => "home"
  }

  function DisplayName(c: Category): string
  {
    match c
    case Salario => "Salary"
    case Compras => "Shopping"
    case Presente => "Gift"
    case Contas => "Bill"
    case Moradia => "Home"
  }

  /** The type a category belongs to. */
  function TypeOf(c: Category): TxType
  {
    match c
    case Salario => Income
    case _ => Expense
  }

  /** The category with the given raw value, if any (the enum's `init?(rawValue:)`). */
  function FromRaw(s: string): (r: Option<Category>)
    ensures r.Some? ==> RawValue(r.value) == s
    ensures r.None? ==> forall c :: RawValue(c) != s
  {
    if s == "salary" then Some(Salario)
    else if s == "shopping" then Some(Compras)
    else if s == "gift" then Some(Presente)
    else if s == "bills" then Some(Contas)
    else if s == "home" then Some(Moradia)
    else None
  }

  function HasType(t: TxType): Category -> bool
  {
    c => TypeOf(c) == t
  }

  /** The categories of type `t`, in declaration order. */
  function CategoriesFor(t: TxType): (r: seq<Category>)
    ensures forall c :: c in r <==> TypeOf(c) == t
    ensures |r| > 0
  {
    forall c ensures c in Listed(t) <==> TypeOf(c) == t {
      ListedMembers(t, c);
    }
    Seqs.Filter(AllCases, HasType(t))
  }

  function Listed(t: TxType): seq<Category>
  {
    if t == Income then [Salario] else [Compras, Presente, Contas, Moradia]
  }

  lemma ListedMembers(t: TxType, c: Category)
    ensures c in Listed(t) <==> TypeOf(c) == t
  {
    match c
    case Salario => assert Listed(Income)[0] == c;
    case Compras => assert Listed(Expense)[0] == c;
    case Presente => assert Listed(Expense)[1] == c;
    case Contas => assert Listed(Expense)[2] == c;
    case Moradia => assert Listed(Expense)[3] == c;
  }

  /** Only the salary category is income; the filter keeps declaration order. */
  lemma CategoriesForValues()
    ensures CategoriesFor(Income) == [Salario]
    ensures CategoriesFor(Expense) == [Compras, Presente, Contas, Moradia]
  {
  }

  /** The income and expense lists are disjoint and together hold every category. */
  lemma CategoriesPartition(c: Category)
    ensures c in CategoriesFor(Income) <==> c !in CategoriesFor(Expense)
    ensures c in CategoriesFor(Income) + CategoriesFor(Expense)
  {
  }

  /** Raw values are pairwise distinct, so looking one up gives back its category. */
  lemma RawValueRoundTrip(c: Category)
    ensures FromRaw(RawValue(c)) == Some(c)
  {
  }

  /** Display names are distinct, so the picker's labels identify their category;
      "Bill" is shown for the category stored as "bills". */
  lemma DisplayNamesDistinct(c: Category, d: Category)
    ensures DisplayName(c) == DisplayName(d) ==> c == d
    ensures DisplayName(c) == "Bill" <==> RawValue(c) == "bills"
  {
  }
}

=== FILE: credentials.dfy ===
/** The saved sign-in credentials (Finances/Services/BiometricAuthManager.swift): the
    `email:password:name` string and the single keychain entry that holds it. Keychain
    status codes and the biometric prompt become boolean parameters. */
module Credentials {
  import opened Wrappers
  import Text

  const Separator: char := ':'

  /** The string stored in the keychain. */
  function Encode(email: string, password: string, name: string): (r: string)
    ensures Text.Count(r, Separator) == Text.Count(email, Separator) + Text.Count(password, Separator) + Text.Count(name, Separator) + 2
    ensures r == Text.Join([email, password, name], Separator)
  {
    var r := email + [Separator] + password + [Separator] + name;
    Text.CountAppend(email + [Separator] + password + [Separator], name, Separator);
    Text.CountAppend(email + [Separator] + password, [Separator], Separator);
    Text.CountAppend(email + [Separator], password, Separator);
    Text.CountAppend(email, [Separator], Separator);
    assert Text.Join([email, password, name], Separator) == email + [Separator] + (password + [Separator] + name) by {
      assert [email, password, name][1..] == [password, name];
      assert [password, name][1..] == [name];
      assert Text.Join([name], Separator) == name;
      assert Text.Join([password, name], Separator) == password + [Separator] + name;
    }
    r
  }

  datatype Triple = Triple(email: string, password: string, name: string)

  /** Split on ':' and accept exactly three pieces, as (email, password, name). */
  function Decode(s: string): (r: Option<Triple>)
    ensures r.Some? <==> Text.Count(s, Separator) == 2
    ensures r.Some? ==> Encode(r.value.email, r.value.password, r.value.name) == s
    ensures r.Some? ==> Separator !in r.value.email && Separator !in r.value.password && Separator !in r.value.name
  {
    var parts := Text.Split(s, Separator);
    if |parts| == 3 then
      assert parts[1..] == [parts[1], parts[2]] && parts[1..][1..] == [parts[2]];
      assert parts == [parts[0], parts[1], parts[2]];
      Some(Triple(parts[0], parts[1], parts[2]))
    else None
  }

  /** Decoding inverts encoding when no field contains ':'. */
  lemma DecodeEncode(email: string, password: string, name: string)
    requires Separator !in email && Separator !in password && Separator !in name
    ensures Decode(Encode(email, password, name)) == Some(Triple(email, password, name))
  {
    Text.SplitJoin([email, password, name], Separator);
  }

  /** A field containing ':' makes the saved string undecodable. */
  lemma DecodeEncodeWithSeparator(email: string, password: string, name: string)
    requires Separator in email || Separator in password || Separator in name
    ensures Decode(Encode(email, password, name)) == None
  {
    Text.CountZero(email, Separator);
    Text.CountZero(password, Separator);
    Text.CountZero(name, Separator);
  }

  /** The keychain item stored under the credentials key, if any. */
  datatype Keychain = Keychain(entry: Option<string>)

  /** `deleteBiometricCredentials()`. */
  function Delete(kc: Keychain): (r: Keychain)
    ensures r.entry.None?
  {
    Keychain(None)
  }

  /** `saveBiometricCredentials(email:password:name:)`: delete any entry, then add the
      encoded string; `addSucceeds` is whether the keychain accepted the item. */
  function Save(kc: Keychain, email: string, password: string, name: string, addSucceeds: bool): (r: (Keychain, bool))
    ensures r.1 <==> addSucceeds
    ensures r.1 ==> r.0.entry == Some(Encode(email, password, name))
    ensures !r.1 ==> r.0.entry.None?
  {
    var cleared := Delete(kc);
    if addSucceeds then (Keychain(Some(Encode(email, password, name))), true) else (cleared, false)
  }

  /** The three values handed to the load callback. */
  datatype Loaded = Loaded(email: Option<string>, password: Option<string>, name: Option<string>)

  const Nothing: Loaded := Loaded(None, None, None)

  /** `loadBiometricCredentials(completion:)`: `accessGranted` is whether the biometric
      check let the read through. Anything but a three-piece entry yields three nils. */
  function Load(kc: Keychain, accessGranted: bool): (r: Loaded)
    ensures r.email.Some? <==> r.password.Some?
    ensures r.email.Some? <==> r.name.Some?
    ensures r.email.Some? <==> accessGranted && kc.entry.Some? && Decode(kc.entry.value).Some?
    ensures r.email.Some? ==>
      Decode(kc.entry.value) == Some(Triple(r.email.value, r.password.value, r.name.value))
  {
    if accessGranted && kc.entry.Some? then
      match Decode(kc.entry.value)
      case Some(t) => Loaded(Some(t.email), Some(t.password), Some(t.name))
      case None => Nothing
    else Nothing
  }

  /** What was saved is what is loaded, provided no field contains ':'. */
  lemma SaveThenLoad(kc: Keychain, email: string, password: string, name: string)
    requires Separator !in email && Separator !in password && Separator !in name
    ensures Load(Save(kc, email, password, name, true).0, true) == Loaded(Some(email), Some(password), Some(name))
  {
    DecodeEncode(email, password, name);
  }

  /** After a delete nothing can be loaded. */
  lemma DeleteThenLoad(kc: Keychain, accessGranted: bool)
    ensures Load(Delete(kc), accessGranted) == Nothing
  {
  }
}

=== FILE: data_manager.dfy ===
/** The persistence layer (Finances/Services/CoreDataManager.swift) as an in-memory store
    of budget, transaction and user records. The signed-in user's id is passed in as an
    optional parameter, record identifiers come from a counter in the store, and the
    current time is a parameter. */
module DataManager {
  import opened Wrappers
  import opened Category
  import Seqs
  import Sorting

  type Id = nat
  /** An instant; only its order matters here. */
  type Date = int

  datatype Budget = Budget(id: Id, userId: string, month: int, year: int, amount: real, createdAt: Date)

  /** `txType` holds the raw string of a `TxType`; `budgetId` is the owning budget. */
  datatype Transaction = Transaction(
    id: Id, title: string, amount: real, category: string, txType: string, date: Date, budgetId: Id)

  datatype User = User(id: Option<Id>, profileImageFilename: Option<string>)

  /** `nextId` is the identifier the next created record receives. */
  datatype Store = Store(budgets: seq<Budget>, transactions: seq<Transaction>, users: seq<User>, nextId: Id)

  const Empty: Store := Store([], [], [], 0)

  predicate ForPeriod(b: Budget, user: string, month: int, year: int)
  {
    b.userId == user && b.month == month && b.year == year
  }

  /** Two budget records that may coexist: different ids, different (user, month, year). */
  predicate DistinctBudgets(x: Budget, y: Budget)
  {
    x.id != y.id && !ForPeriod(y, x.userId, x.month, x.year)
  }

  predicate DistinctTransactions(x: Transaction, y: Transaction)
  {
    x.id != y.id
  }

  /** The store's invariant: at most one budget per (user, month, year), unique record
      ids, and every id below the counter. */
  ghost predicate Valid(st: Store)
  {
    && Seqs.Pairwise(st.budgets, DistinctBudgets)
    && Seqs.Pairwise(st.transactions, DistinctTransactions)
    && (forall b :: b in st.budgets ==> b.id < st.nextId)
    && (forall t :: t in st.transactions ==> t.id < st.nextId)
    && (forall u :: u in st.users && u.id.Some? ==> u.id.value < st.nextId)
  }

  lemma EmptyValid()
    ensures Valid(Empty)
  {
  }

  function IsPeriod(user: string, month: int, year: int): Budget -> bool
  {
    (b: Budget) => ForPeriod(b, user, month, year)
  }

  function IdIs(id: Id): Budget -> bool
  {
    (b: Budget) => b.id == id
  }

  function IdIsNot(id: Id): Budget -> bool
  {
    (b: Budget) => b.id != id
  }

  function TxIdIs(id: Id): Transaction -> bool
  {
    (t: Transaction) => t.id == id
  }

  function TxIdIsNot(id: Id): Transaction -> bool
  {
    (t: Transaction) => t.id != id
  }

  function LinkedTo(id: Id): Transaction -> bool
  {
    (t: Transaction) => t.budgetId == id
  }

  function NotLinkedTo(id: Id): Transaction -> bool
  {
    (t: Transaction) => t.budgetId != id
  }

  function OwnedBy(user: string): Budget -> bool
  {
    (b: Budget) => b.userId == user
  }

  /** Newest date first. */
  function TxKey(t: Transaction): Sorting.Key
  {
    Sorting.Key(t.date, 0)
  }

  /** Year descending, then month descending. */
  function BudgetKey(b: Budget): Sorting.Key
  {
    Sorting.Key(b.year, b.month)
  }

  /** The position of the first budget of `user` for the period, in store order. */
  function FindBudget(st: Store, user: string, month: int, year: int): Option<nat>
  {
    Seqs.FirstIndex(st.budgets, IsPeriod(user, month, year))
  }

  /** `getCurrentUserBudget(for:year:)`: the signed-in user's budget for a month. */
  function GetCurrentUserBudget(st: Store, auth: Option<string>, month: int, year: int): (r: Option<Budget>)
    ensures auth.None? ==> r.None?
    ensures r.Some? ==> r.value in st.budgets && ForPeriod(r.value, auth.value, month, year)
    ensures auth.Some? && r.None? ==> forall b :: b in st.budgets ==> !ForPeriod(b, auth.value, month, year)
  {
    match auth
    case None => None
    case Some(user) =>
      match FindBudget(st, user, month, year)
      case None => None
      case Some(i) => Some(st.budgets[i])
  }

  /** With the invariant, the budget found is the only one for that period. */
  lemma LookupUnique(st: Store, user: string, month: int, year: int, b: Budget)
    requires Valid(st)
    requires b in st.budgets && ForPeriod(b, user, month, year)
    ensures GetCurrentUserBudget(st, Some(user), month, year) == Some(b)
  {
    var i :| 0 <= i < |st.budgets| && st.budgets[i] == b;
    var j := FindBudget(st, user, month, year).value;
    assert j <= i;
    assert j < i ==> DistinctBudgets(st.budgets[j], st.budgets[i]);
  }

  /** `createBudget(amount:month:year:)`: overwrite the amount of the user's budget for
      the period if there is one, otherwise add a new budget; nothing without a user. */
  function CreateBudget(st: Store, auth: Option<string>, amount: real, month: int, year: int, now: Date)
    : (r: (Store, Option<Budget>))
    ensures auth.None? <==> r.1.None?
    ensures auth.None? ==> r.0 == st
    ensures r.1.Some? ==> ForPeriod(r.1.value, auth.value, month, year) && r.1.value.amount == amount
    ensures auth.Some? ==> GetCurrentUserBudget(r.0, auth, month, year) == r.1
    ensures r.0.transactions == st.transactions && r.0.users == st.users
    ensures auth.Some? && GetCurrentUserBudget(st, auth, month, year).Some? ==>
      var prev := GetCurrentUserBudget(st, auth, month, year).value;
      && r.1 == Some(prev.(amount := amount))
      && |r.0.budgets| == |st.budgets|
      && r.0.nextId == st.nextId
    ensures auth.Some? && GetCurrentUserBudget(st, auth, month, year).None? ==>
      && r.0.budgets == st.budgets + [r.1.value]
      && r.1.value.id == st.nextId
      && r.1.value.createdAt == now
    ensures auth.Some? ==> forall k :: 0 <= k < |st.budgets| && !ForPeriod(st.budgets[k], auth.value, month, year) ==> k < |r.0.budgets| && r.0.budgets[k] == st.budgets[k]
    ensures Valid(st) ==> Valid(r.0)
  {
    match auth
    case None => (st, None)
    case Some(user) =>
      match FindBudget(st, user, month, year)
      case Some(i) =>
        var updated := st.budgets[i].(amount := amount);
        var st' := st.(budgets := st.budgets[i := updated]);
        assert Valid(st) ==> Valid(st') by {
          if Valid(st) {
            forall a, c | 0 <= a < c < |st'.budgets|
              ensures DistinctBudgets(st'.budgets[a], st'.budgets[c])
            {
              assert DistinctBudgets(st.budgets[a], st.budgets[c]);
            }
            forall b | b in st'.budgets ensures b.id < st'.nextId {
              var k :| 0 <= k < |st'.budgets| && st'.budgets[k] == b;
              assert st.budgets[k] in st.budgets;
            }
          }
        }
        assert FindBudget(st', user, month, year) == Some(i) by {
          assert forall j :: 0 <= j < i ==> st'.budgets[j] == st.budgets[j];
          Seqs.FirstIndexAt(st'.budgets, IsPeriod(user, month, year), i);
        }
        (st', Some(updated))
      case None =>
        var b := Budget(st.nextId, user, month, year, amount, now);
        var st' := st.(budgets := st.budgets + [b], nextId := st.nextId + 1);
        assert Valid(st) ==> Valid(st') by {
          if Valid(st) {
            forall a, c | 0 <= a < c < |st'.budgets|
              ensures DistinctBudgets(st'.budgets[a], st'.budgets[c])
            {
              if c < |st.budgets| {
                assert DistinctBudgets(st.budgets[a], st.budgets[c]);
              } else {
                assert st.budgets[a] in st.budgets;
              }
            }
          }
        }
        assert FindBudget(st', user, month, year) == Some(|st.budgets|) by {
          assert forall j :: 0 <= j < |st.budgets| ==> st'.budgets[j] == st.budgets[j];
          Seqs.FirstIndexAt(st'.budgets, IsPeriod(user, month, year), |st.budgets|);
        }
        (st', Some(b))
  }

  /** The upsert never creates a second budget for a period: after it, exactly one
      budget of the user exists for (month, year). */
  lemma CreateBudgetKeepsOnePerPeriod(st: Store, user: string, amount: real, month: int, year: int, now: Date)
    requires Valid(st)
    ensures var r := CreateBudget(st, Some(user), amount, month, year, now);
      forall b :: b in r.0.budgets && ForPeriod(b, user, month, year) ==> Some(b) == r.1
  {
    var r := CreateBudget(st, Some(user), amount, month, year, now);
    forall b | b in r.0.budgets && ForPeriod(b, user, month, year)
      ensures Some(b) == r.1
    {
      LookupUnique(r.0, user, month, year, b);
    }
  }

  /** `deleteBudget(_:)`: removes the budget and, through the owning relationship, the
      transactions linked to it. */
  function DeleteBudget(st: Store, b: Budget): (r: Store)
    ensures forall x :: x in r.budgets ==> x in st.budgets && x.id != b.id
    ensures forall k :: 0 <= k < |st.budgets| && st.budgets[k].id != b.id ==> st.budgets[k] in r.budgets
    ensures forall t :: t in r.transactions ==> t in st.transactions && t.budgetId != b.id
    ensures forall k :: 0 <= k < |st.transactions| && st.transactions[k].budgetId != b.id ==> st.transactions[k] in r.transactions
    ensures r.users == st.users && r.nextId == st.nextId
    ensures Valid(st) ==> Valid(r)
  {
    var r := Store(Seqs.Filter(st.budgets, IdIsNot(b.id)), Seqs.Filter(st.transactions, NotLinkedTo(b.id)),
                   st.users, st.nextId);
    assert Valid(st) ==> Valid(r) by {
      if Valid(st) {
        Seqs.FilterPairwise(st.budgets, IdIsNot(b.id), DistinctBudgets);
        Seqs.FilterPairwise(st.transactions, NotLinkedTo(b.id), DistinctTransactions);
      }
    }
    r
  }

  /** `getTransactions(for:)`: the transactions linked to `b`, newest date first. */
  function GetTransactions(st: Store, b: Budget): (r: seq<Transaction>)
    ensures forall t :: t in r ==> t in st.transactions && t.budgetId == b.id
    ensures forall k :: 0 <= k < |st.transactions| && st.transactions[k].budgetId == b.id ==> st.transactions[k] in r
    ensures multiset(r) == multiset(Seqs.Filter(st.transactions, LinkedTo(b.id)))
    ensures forall i, j :: 0 <= i < j < |r| ==> r[i].date >= r[j].date
  {
    var linked := Seqs.Filter(st.transactions, LinkedTo(b.id));
    var r := Sorting.SortDesc(linked, TxKey);
    assert forall t :: t in r <==> t in linked by {
      forall t ensures t in r <==> t in linked {
        Sorting.SortDescMembers(linked, TxKey, t);
      }
    }
    assert forall i, j :: 0 <= i < j < |r| ==> Sorting.AtLeast(TxKey(r[i]), TxKey(r[j]));
    r
  }

  /** `createTransaction(...)`: adds one transaction linked to `budget`, storing the
      type's raw string; the budget itself is not checked against the store. */
  function CreateTransaction(st: Store, title: string, amount: real, category: string, txType: TxType,
                             date: Date, budget: Budget): (r: (Store, Option<Transaction>))
    ensures r.1.Some?
    ensures var t := r.1.value;
      && t.title == title && t.amount == amount && t.category == category
      && t.txType == TypeRaw(txType) && t.date == date && t.budgetId == budget.id
      && r.0.transactions == st.transactions + [t]
      && (forall x :: x in st.transactions ==> x.id != t.id || !Valid(st))
    ensures r.0.budgets == st.budgets && r.0.users == st.users && r.0.nextId == st.nextId + 1
    ensures Valid(st) ==> Valid(r.0)
  {
    var t := Transaction(st.nextId, title, amount, category, TypeRaw(txType), date, budget.id);
    var st' := st.(transactions := st.transactions + [t], nextId := st.nextId + 1);
    assert Valid(st) ==> Valid(st') by {
      if Valid(st) {
        forall a, c | 0 <= a < c < |st'.transactions|
          ensures DistinctTransactions(st'.transactions[a], st'.transactions[c])
        {
          if c < |st.transactions| {
            assert DistinctTransactions(st.transactions[a], st.transactions[c]);
          } else {
            assert st.transactions[a] in st.transactions;
          }
        }
      }
    }
    (st', Some(t))
  }

  /** `deleteTransaction(_:)`: removes that transaction and nothing else. */
  function DeleteTransaction(st: Store, t: Transaction): (r: Store)
    ensures forall x :: x in r.transactions ==> x in st.transactions && x.id != t.id
    ensures forall k :: 0 <= k < |st.transactions| && st.transactions[k].id != t.id ==> st.transactions[k] in r.transactions
    ensures r.budgets == st.budgets && r.users == st.users && r.nextId == st.nextId
    ensures Valid(st) ==> Valid(r)
  {
    var r := st.(transactions := Seqs.Filter(st.transactions, TxIdIsNot(t.id)));
    assert Valid(st) ==> Valid(r) by {
      if Valid(st) {
        Seqs.FilterPairwise(st.transactions, TxIdIsNot(t.id), DistinctTransactions);
      }
    }
    r
  }

  /** `getAllUserBudgets()`: the signed-in user's budgets, year then month descending;
      none without a user. */
  function GetAllUserBudgets(st: Store, auth: Option<string>): (r: seq<Budget>)
    ensures auth.None? ==> r == []
    ensures forall b :: b in r ==> b in st.budgets && b.userId == auth.value
    ensures auth.Some? ==> forall k :: 0 <= k < |st.budgets| && st.budgets[k].userId == auth.value ==> st.budgets[k] in r
    ensures auth.Some? ==> multiset(r) == multiset(Seqs.Filter(st.budgets, OwnedBy(auth.value)))
    ensures forall i, j :: 0 <= i < j < |r| ==>
      r[i].year > r[j].year || (r[i].year == r[j].year && r[i].month >= r[j].month)
  {
    match auth
    case None => []
    case Some(user) =>
      var owned := Seqs.Filter(st.budgets, OwnedBy(user));
      var r := Sorting.SortDesc(owned, BudgetKey);
      assert forall b :: b in r <==> b in owned by {
        forall b ensures b in r <==> b in owned {
          Sorting.SortDescMembers(owned, BudgetKey, b);
        }
      }
      assert forall i, j :: 0 <= i < j < |r| ==> Sorting.AtLeast(BudgetKey(r[i]), BudgetKey(r[j]));
      r
  }

  /** `deleteAllData()`: every budget and transaction removed; the user record stays. */
  function DeleteAllData(st: Store): (r: Store)
    ensures |r.budgets| == 0 && |r.transactions| == 0
    ensures r.users == st.users && r.nextId == st.nextId
    ensures Valid(st) ==> Valid(r)
  {
    st.(budgets := [], transactions := [])
  }

  /** `fetchUser()`: the first user record, if any. */
  function FetchUser(st: Store): (r: Option<User>)
    ensures r.None? <==> |st.users| == 0
    ensures r.Some? ==> r.value in st.users
  {
    if |st.users| == 0 then None else Some(st.users[0])
  }

  /** `updateUserProfileImage(filename:)`: reuse the user record or create one, set its
      filename, and give it an id only if it has none. */
  function UpdateUserProfileImage(st: Store, filename: string): (r: (Store, Option<User>))
    ensures r.1.Some? && FetchUser(r.0) == r.1
    ensures r.1.value.profileImageFilename == Some(filename)
    ensures r.1.value.id.Some?
    ensures FetchUser(st).Some? && FetchUser(st).value.id.Some? ==> r.1.value.id == FetchUser(st).value.id
    ensures FetchUser(st).None? || FetchUser(st).value.id.None? ==> r.1.value.id == Some(st.nextId)
    ensures |r.0.users| == if |st.users| == 0 then 1 else |st.users|
    ensures |st.users| > 0 ==> r.0.users[1..] == st.users[1..]
    ensures r.0.nextId == if FetchUser(st).Some? && FetchUser(st).value.id.Some? then st.nextId else st.nextId + 1
    ensures r.0.budgets == st.budgets && r.0.transactions == st.transactions
    ensures Valid(st) ==> Valid(r.0)
  {
    var user := FetchUser(st).GetOr(User(None, None)).(profileImageFilename := Some(filename));
    var (user', next) := if user.id.None? then (user.(id := Some(st.nextId)), st.nextId + 1) else (user, st.nextId);
    var users := if |st.users| == 0 then [user'] else st.users[0 := user'];
    assert Valid(st) ==> forall u :: u in users && u.id.Some? ==> u.id.value < next by {
      if Valid(st) {
        forall u | u in users && u.id.Some? ensures u.id.value < next {
          if u != user' {
            var k :| 0 <= k < |users| && users[k] == u;
            assert st.users[k] in st.users;
          }
        }
      }
    }
    (Store(st.budgets, st.transactions, users, next), Some(user'))
  }
}

=== FILE: hex_color.dfy ===
/** Decoding of colour strings into alpha, red, green and blue bytes
    (Finances/Resources/Constants/Colors.swift, `UIColor(hex:)`), up to the division by
    255 that turns bytes into colour components. */
module HexColor {
  import opened Wrappers
  import Text

  /** Letters and digits; surrounding characters that are neither are trimmed. */
  predicate IsAlphanumeric(c: char)
  {
    ('0' <= c <= '9') || ('a' <= c <= 'z') || ('A' <= c <= 'Z')
  }

  function NotAlphanumeric(): char -> bool
  {
    c => !IsAlphanumeric(c)
  }

  function Trimmed(hex: string): string
  {
    Text.Trim(hex, NotAlphanumeric())
  }

  /** The value of a hexadecimal digit of either case. */
  function HexDigit(c: char): (r: Option<nat>)
    ensures r.Some? ==> r.value < 16
  {
    if '0' <= c <= '9' then Some(c as int - '0' as int)
    else if 'a' <= c <= 'f' then Some(c as int - 'a' as int + 10)
    else if 'A' <= c <= 'F' then Some(c as int - 'A' as int + 10)
    else None
  }

  predicate AllHex(d: string)
  {
    forall k :: 0 <= k < |d| ==> HexDigit(d[k]).Some?
  }

  /** How many hexadecimal digits `s` starts with. */
  function HexRun(s: string): (r: nat)
    ensures r <= |s|
    ensures AllHex(s[..r])
    ensures r < |s| ==> HexDigit(s[r]).None?
    decreases |s|
  {
    if |s| == 0 || HexDigit(s[0]).None? then 0
    else
      var r := 1 + HexRun(s[1..]);
      assert forall k :: 1 <= k < r ==> s[..r][k] == s[1..][..r - 1][k - 1];
      r
  }

  /** Sixteen to the power `n`: how many values `n` hexadecimal digits can spell. */
  function Pow16(n: nat): (r: nat)
    ensures r > 0
  {
    if n == 0 then 1 else 16 * Pow16(n - 1)
  }

  /** Appending `n` digits to `m` digits multiplies the number of values they spell. */
  lemma {:induction false} Pow16Add(m: nat, n: nat)
    ensures Pow16(m + n) == Pow16(m) * Pow16(n)
    decreases n
  {
    if n > 0 {
      Pow16Add(m, n - 1);
      assert Pow16(m + n) == 16 * Pow16(m + n - 1);
    }
  }

  lemma {:induction false} Pow16Monotone(m: nat, n: nat)
    requires m <= n
    ensures Pow16(m) <= Pow16(n)
    decreases n
  {
    if m < n {
      Pow16Monotone(m, n - 1);
    }
  }

  /** The number a string of hexadecimal digits denotes; it fits in `|d|` digits. */
  function HexValue(d: string): (r: nat)
    requires AllHex(d)
    ensures r < Pow16(|d|)
    decreases |d|
  {
    if |d| == 0 then 0
    else
      assert AllHex(d[..|d| - 1]) by {
        assert forall k :: 0 <= k < |d| - 1 ==> d[..|d| - 1][k] == d[k];
      }
      HexValue(d[..|d| - 1]) * 16 + HexDigit(d[|d| - 1]).value
  }

  /** `Scanner.scanHexInt64`: the value of the leading hexadecimal digits, after an
      optional "0x" or "0X" that is followed by a digit; 0 when there are none. */
  function ScanHex(s: string): (r: nat)
    ensures r < Pow16(|s|)
  {
    if |s| >= 3 && s[0] == '0' && (s[1] == 'x' || s[1] == 'X') && HexDigit(s[2]).Some? then
      var n := HexRun(s[2..]);
      Pow16Monotone(n, |s|);
      HexValue(s[2..][..n])
    else
      var n := HexRun(s);
      Pow16Monotone(n, |s|);
      HexValue(s[..n])
  }

  datatype Argb = Argb(a: nat, r: nat, g: nat, b: nat)

  /** 12-bit RGB: one nibble per channel, scaled by 17. */
  function Rgb12(v: nat): (c: Argb)
    requires v < 4096
    ensures c.a == 255 && c.r <= 255 && c.g <= 255 && c.b <= 255
    ensures c.r % 17 == 0 && c.g % 17 == 0 && c.b % 17 == 0
    ensures (c.r / 17) * 256 + (c.g / 17) * 16 + c.b / 17 == v
  {
    var hi, mid, lo := v / 256, (v / 16) % 16, v % 16;
    assert v == hi * 256 + mid * 16 + lo;
    assert (hi * 17) / 17 == hi && (mid * 17) / 17 == mid && (lo * 17) / 17 == lo;
    Argb(255, hi * 17, mid * 17, lo * 17)
  }

  /** 24-bit RGB: one byte per channel. */
  function Rgb24(v: nat): (c: Argb)
    requires v < 16777216
    ensures c.a == 255 && c.r <= 255 && c.g <= 255 && c.b <= 255
    ensures c.r * 65536 + c.g * 256 + c.b == v
  {
    var lo := v % 256;
    var mid := (v / 256) % 256;
    var hi := v / 65536;
    assert v / 65536 == (v / 256) / 256;
    Argb(255, hi, mid, lo)
  }

  /** 32-bit ARGB: alpha in the top byte. */
  function Argb32(v: nat): (c: Argb)
    requires v < 4294967296
    ensures c.a <= 255 && c.r <= 255 && c.g <= 255 && c.b <= 255
    ensures c.a * 16777216 + c.r * 65536 + c.g * 256 + c.b == v
  {
    assert v / 65536 == (v / 256) / 256;
    assert v / 16777216 == (v / 65536) / 256;
    Argb(v / 16777216, (v / 65536) % 256, (v / 256) % 256, v % 256)
  }

  /** `UIColor(hex:)` before normalisation: 3 digits are 12-bit RGB (each nibble
      times 17), 6 digits 24-bit RGB, 8 digits 32-bit ARGB; other lengths give
      (1, 1, 1, 0). */
  function Components(hex: string): (c: Argb)
    ensures var n := |Trimmed(hex)|;
      n == 3 || n == 6 || n == 8 ==> c.a <= 255 && c.r <= 255 && c.g <= 255 && c.b <= 255
    ensures var n := |Trimmed(hex)|;
      !(n == 3 || n == 6 || n == 8) ==> c == Argb(1, 1, 1, 0)
    ensures |Trimmed(hex)| == 3 ==> c == Rgb12(ScanHex(Trimmed(hex)))
    ensures |Trimmed(hex)| == 6 ==> c.a == 255 && c.r * 65536 + c.g * 256 + c.b == ScanHex(Trimmed(hex))
    ensures |Trimmed(hex)| == 8 ==> c.a * 16777216 + c.r * 65536 + c.g * 256 + c.b == ScanHex(Trimmed(hex))
  {
    var h := Trimmed(hex);
    var v := ScanHex(h);
    if |h| == 3 then
      assert Pow16(3) == 4096;
      Rgb12(v)
    else if |h| == 6 then
      assert Pow16(6) == 16777216;
      Rgb24(v)
    else if |h| == 8 then
      assert Pow16(8) == 4294967296;
      Argb32(v)
    else Argb(1, 1, 1, 0)
  }

  /** Three hexadecimal digits: each channel is its digit times 17, so "F" becomes 255. */
  lemma ThreeDigitChannels(hex: string)
    requires |Trimmed(hex)| == 3 && AllHex(Trimmed(hex))
    ensures var h := Trimmed(hex);
      Components(hex) == Argb(255, HexDigit(h[0]).value * 17, HexDigit(h[1]).value * 17, HexDigit(h[2]).value * 17)
  {
    var h := Trimmed(hex);
    assert h[..3] == h;
    assert HexRun(h) == 3;
    var v := HexValue(h);
    assert ScanHex(h) == v by {
      assert HexDigit(h[1]).Some?;
    }
    var d0, d1, d2 := HexDigit(h[0]).value, HexDigit(h[1]).value, HexDigit(h[2]).value;
    assert h[..2] == h[..3][..2] && h[..2][..1] == h[..1] && h[..1][..0] == [];
    assert HexValue(h[..1]) == d0;
    assert HexValue(h[..2]) == d0 * 16 + d1;
    assert v == d0 * 256 + d1 * 16 + d2;
    Rgb12Digits(d0, d1, d2);
  }

  lemma Rgb12Digits(d0: nat, d1: nat, d2: nat)
    requires d0 < 16 && d1 < 16 && d2 < 16
    ensures Rgb12(d0 * 256 + d1 * 16 + d2) == Argb(255, d0 * 17, d1 * 17, d2 * 17)
  {
    var v := d0 * 256 + d1 * 16 + d2;
    assert v / 256 == d0 && (v / 16) % 16 == d1 && v % 16 == d2;
  }

  /** The brand red "#D93A4A". */
  lemma BrandRed()
    ensures Components("#D93A4A") == Argb(255, 0xD9, 0x3A, 0x4A)
  {
    TrimmedBrandRed();
    ScannedBrandRed();
  }

  lemma TrimmedBrandRed()
    ensures Trimmed("#D93A4A") == "D93A4A"
  {
    var p := NotAlphanumeric();
    var s := "#D93A4A";
    assert p(s[0]) && s[1..] == "D93A4A" && !p(s[1]);
    assert Text.TrimStart(s[1..], p) == "D93A4A";
    assert Text.TrimStart(s, p) == "D93A4A";
    assert !p("D93A4A"[5]);
    assert Text.TrimEnd("D93A4A", p) == "D93A4A";
  }

  lemma ScannedBrandRed()
    ensures ScanHex("D93A4A") == 0xD93A4A
  {
    var h := "D93A4A";
    assert AllHex(h) by {
      assert HexDigit(h[0]) == Some(13) && HexDigit(h[1]) == Some(9) && HexDigit(h[2]) == Some(3);
      assert HexDigit(h[3]) == Some(10) && HexDigit(h[4]) == Some(4) && HexDigit(h[5]) == Some(10);
    }
    HexRunAll(h);
    assert h[..6] == h;
    HexValueSix(h);
  }

  lemma HexRunAll(s: string)
    requires AllHex(s)
    ensures HexRun(s) == |s|
  {
  }

  /** A string of hexadecimal digits scans to the number it denotes: a leading "0x" is
      impossible there, since 'x' is not a digit. */
  lemma ScanAllDigits(h: string)
    requires AllHex(h)
    ensures ScanHex(h) == HexValue(h)
  {
    HexRunAll(h);
    assert h[..|h|] == h;
    if |h| >= 3 {
      assert HexDigit(h[1]).Some?;
    }
  }

  /** After "0x" or "0X", the digits that follow are what is scanned. */
  lemma ScanPrefixed(s: string)
    requires |s| >= 3 && s[0] == '0' && (s[1] == 'x' || s[1] == 'X') && AllHex(s[2..])
    ensures ScanHex(s) == HexValue(s[2..])
  {
    HexRunAll(s[2..]);
    assert s[2..][..|s| - 2] == s[2..];
    assert HexDigit(s[2..][0]).Some?;
  }

  /** The byte written by the two hexadecimal digits at `k` and `k + 1`. */
  function Byte(h: string, k: nat): (r: nat)
    requires k + 1 < |h| && AllHex(h)
    ensures r < 256
    ensures r / 16 == HexDigit(h[k]).value && r % 16 == HexDigit(h[k + 1]).value
  {
    HexDigit(h[k]).value * 16 + HexDigit(h[k + 1]).value
  }

  /** One more digit multiplies the value so far by 16 and adds the digit. */
  lemma HexValueStep(h: string, k: nat)
    requires AllHex(h) && 0 < k <= |h|
    ensures HexValue(h[..k]) == HexValue(h[..k - 1]) * 16 + HexDigit(h[k - 1]).value
  {
    assert h[..k][..k - 1] == h[..k - 1];
  }

  lemma HexValueSix(h: string)
    requires |h| == 6 && AllHex(h)
    ensures HexValue(h) == Byte(h, 0) * 65536 + Byte(h, 2) * 256 + Byte(h, 4)
  {
    assert h[..0] == [];
    HexValueStep(h, 1);
    HexValueStep(h, 2);
    HexValueStep(h, 3);
    HexValueStep(h, 4);
    HexValueStep(h, 5);
    HexValueStep(h, 6);
    assert h[..6] == h;
  }

  lemma HexValueEight(h: string)
    requires |h| == 8 && AllHex(h)
    ensures HexValue(h) == Byte(h, 0) * 16777216 + Byte(h, 2) * 65536 + Byte(h, 4) * 256 + Byte(h, 6)
  {
    assert h[..0] == [];
    HexValueStep(h, 1);
    HexValueStep(h, 2);
    HexValueStep(h, 3);
    HexValueStep(h, 4);
    HexValueStep(h, 5);
    HexValueStep(h, 6);
    HexValueStep(h, 7);
    HexValueStep(h, 8);
    assert h[..8] == h;
  }

  /** Appending a byte `r` to `q`: division by 256 recovers both. */
  lemma ByteShift(q: nat, r: nat)
    requires r < 256
    ensures (q * 256 + r) / 256 == q && (q * 256 + r) % 256 == r
  {
  }

  lemma Rgb24Bytes(x: nat, y: nat, z: nat)
    requires x < 256 && y < 256 && z < 256
    ensures Rgb24(x * 65536 + y * 256 + z) == Argb(255, x, y, z)
  {
    var u := x * 256 + y;
    var v := u * 256 + z;
    ByteShift(u, z);
    ByteShift(x, y);
    assert v / 65536 == (v / 256) / 256;
  }

  lemma Argb32Bytes(w: nat, x: nat, y: nat, z: nat)
    requires w < 256 && x < 256 && y < 256 && z < 256
    ensures Argb32(w * 16777216 + x * 65536 + y * 256 + z) == Argb(w, x, y, z)
  {
    var t := w * 256 + x;
    var u := t * 256 + y;
    var v := u * 256 + z;
    ByteShift(u, z);
    ByteShift(t, y);
    ByteShift(w, x);
    assert v / 65536 == (v / 256) / 256;
    assert v / 16777216 == (v / 65536) / 256;
  }

  /** Six hexadecimal digits: each pair of digits is one byte, red first, fully opaque. */
  lemma SixDigitChannels(hex: string)
    requires |Trimmed(hex)| == 6 && AllHex(Trimmed(hex))
    ensures var h := Trimmed(hex);
      Components(hex) == Argb(255, Byte(h, 0), Byte(h, 2), Byte(h, 4))
  {
    var h := Trimmed(hex);
    ScanAllDigits(h);
    HexValueSix(h);
    Rgb24Bytes(Byte(h, 0), Byte(h, 2), Byte(h, 4));
  }

  /** Eight hexadecimal digits: alpha, red, green and blue, one byte each. */
  lemma EightDigitChannels(hex: string)
    requires |Trimmed(hex)| == 8 && AllHex(Trimmed(hex))
    ensures var h := Trimmed(hex);
      Components(hex) == Argb(Byte(h, 0), Byte(h, 2), Byte(h, 4), Byte(h, 6))
  {
    var h := Trimmed(hex);
    ScanAllDigits(h);
    HexValueEight(h);
    Argb32Bytes(Byte(h, 0), Byte(h, 2), Byte(h, 4), Byte(h, 6));
  }
}

=== FILE: seqs.dfy ===
/** Order-preserving filtering and first-match removal over sequences. */
module Seqs {
  import opened Wrappers

  /** The elements of `s` satisfying `p`, in their original order (Swift's `filter`). */
  function Filter<T>(s: seq<T>, p: T -> bool): (r: seq<T>)
    ensures |r| <= |s|
    ensures forall i :: 0 <= i < |r| ==> r[i] in s && p(r[i])
    ensures forall i :: 0 <= i < |s| && p(s[i]) ==> s[i] in r
    decreases |s|
  {
    if |s| == 0 then []
    else if p(s[0]) then [s[0]] + Filter(s[1..], p)
    else Filter(s[1..], p)
  }

  lemma {:induction false} FilterAppend<T>(a: seq<T>, b: seq<T>, p: T -> bool)
    ensures Filter(a + b, p) == Filter(a, p) + Filter(b, p)
    decreases |a|
  {
    if |a| == 0 {
      assert a + b == b;
    } else {
      assert (a + b)[1..] == a[1..] + b;
      FilterAppend(a[1..], b, p);
    }
  }

  /** The index of the first element satisfying `p` (Swift's `firstIndex(where:)`). */
  function FirstIndex<T>(s: seq<T>, p: T -> bool): (r: Option<nat>)
    ensures r.Some? ==> r.value < |s| && p(s[r.value])
    ensures r.Some? ==> forall j :: 0 <= j < r.value ==> !p(s[j])
    ensures r.None? ==> forall j :: 0 <= j < |s| ==> !p(s[j])
    decreases |s|
  {
    if |s| == 0 then None
    else if p(s[0]) then Some(0)
    else match FirstIndex(s[1..], p)
      case None => None
      case Some(i) => Some(i + 1)
  }

  /** The first match is the one at `i` when nothing before it matches. */
  lemma FirstIndexAt<T>(s: seq<T>, p: T -> bool, i: nat)
    requires i < |s| && p(s[i])
    requires forall j :: 0 <= j < i ==> !p(s[j])
    ensures FirstIndex(s, p) == Some(i)
  {
  }

  /** `s` without its first element satisfying `p`; `s` itself when none does
      (`firstIndex(where:)` followed by `remove(at:)`). */
  function RemoveFirst<T>(s: seq<T>, p: T -> bool): (r: seq<T>)
    ensures FirstIndex(s, p).None? ==> r == s
    ensures FirstIndex(s, p).Some? ==>
      var i := FirstIndex(s, p).value; r == s[..i] + s[i + 1..]
  {
    match FirstIndex(s, p)
    case None => s
    case Some(i) => s[..i] + s[i + 1..]
  }

  /** Removing the first match drops exactly one element when one exists. */
  lemma RemoveFirstLength<T>(s: seq<T>, p: T -> bool)
    ensures |RemoveFirst(s, p)| == if exists i :: 0 <= i < |s| && p(s[i]) then |s| - 1 else |s|
  {
    if FirstIndex(s, p).Some? {
      var i := FirstIndex(s, p).value;
      assert 0 <= i < |s| && p(s[i]);
    }
  }

  /** `R` holds between every element and each later one. */
  ghost predicate Pairwise<T>(s: seq<T>, R: (T, T) -> bool)
  {
    forall i, j :: 0 <= i < j < |s| ==> R(s[i], s[j])
  }

  /** Filtering keeps relative order, so a pairwise property survives it. */
  lemma {:induction false} FilterPairwise<T>(s: seq<T>, p: T -> bool, R: (T, T) -> bool)
    requires Pairwise(s, R)
    ensures Pairwise(Filter(s, p), R)
    decreases |s|
  {
    if |s| > 0 {
      assert Pairwise(s[1..], R) by {
        forall i, j | 0 <= i < j < |s[1..]| ensures R(s[1..][i], s[1..][j]) {
          assert s[1..][i] == s[i + 1] && s[1..][j] == s[j + 1];
        }
      }
      FilterPairwise(s[1..], p, R);
      var rest := Filter(s[1..], p);
      if p(s[0]) {
        forall j | 0 <= j < |rest| ensures R(s[0], rest[j]) {
          var k :| 0 <= k < |s[1..]| && s[1..][k] == rest[j];
          assert s[k + 1] == rest[j];
        }
      }
    }
  }
}

=== FILE: sorting.dfy ===
/** Newest-first ordering of records by a two-level key, as the store's sort descriptors
    (`ascending: false`) and the view model's `sort` closure order them. */
module Sorting {
  import Seqs

  /** A sort key compared lexicographically: `major` first, then `minor`. */
  datatype Key = Key(major: int, minor: int)

  /** `a` may come before `b` in a newest-first listing. */
  predicate AtLeast(a: Key, b: Key)
  {
    a.major > b.major || (a.major == b.major && a.minor >= b.minor)
  }

  /** Every element's key is at least that of every later element. */
  ghost predicate SortedDesc<T>(s: seq<T>, key: T -> Key)
  {
    forall i, j :: 0 <= i < j < |s| ==> AtLeast(key(s[i]), key(s[j]))
  }

  /** `x` placed before the first element whose key it is at least. */
  function Insert<T>(x: T, s: seq<T>, key: T -> Key): (r: seq<T>)
    requires SortedDesc(s, key)
    ensures SortedDesc(r, key)
    ensures multiset(r) == multiset(s) + multiset{x}
    decreases |s|
  {
    if |s| == 0 then [x]
    else if AtLeast(key(x), key(s[0])) then [x] + s
    else
      var rest := Insert(x, s[1..], key);
      assert forall k :: 0 <= k < |rest| ==> AtLeast(key(s[0]), key(rest[k])) by {
        forall k | 0 <= k < |rest|
          ensures AtLeast(key(s[0]), key(rest[k]))
        {
          assert rest[k] in multiset(rest);
          assert rest[k] in multiset(s[1..]) || rest[k] == x;
          if rest[k] != x {
            assert rest[k] in s[1..];
          }
        }
      }
      assert s == [s[0]] + s[1..];
      [s[0]] + rest
  }

  /** `s` arranged newest-first: a permutation of `s` that is sorted by `key`. */
  function SortDesc<T>(s: seq<T>, key: T -> Key): (r: seq<T>)
    ensures SortedDesc(r, key)
    ensures multiset(r) == multiset(s)
    ensures |r| == |s|
    decreases |s|
  {
    if |s| == 0 then []
    else
      assert s == [s[0]] + s[1..];
      Insert(s[0], SortDesc(s[1..], key), key)
  }

  /** Sorting keeps exactly the elements it was given. */
  lemma SortDescMembers<T>(s: seq<T>, key: T -> Key, x: T)
    ensures x in SortDesc(s, key) <==> x in s
  {
    assert x in SortDesc(s, key) <==> x in multiset(SortDesc(s, key));
    assert x in s <==> x in multiset(s);
  }

  /** Sorting a list that is already newest-first leaves it as it is. */
  lemma {:induction false} SortDescOfSorted<T>(s: seq<T>, key: T -> Key)
    requires SortedDesc(s, key)
    ensures SortDesc(s, key) == s
    decreases |s|
  {
    if |s| > 0 {
      assert SortedDesc(s[1..], key) by {
        forall i, j | 0 <= i < j < |s[1..]| ensures AtLeast(key(s[1..][i]), key(s[1..][j])) {
          assert s[1..][i] == s[i + 1] && s[1..][j] == s[j + 1];
        }
      }
      SortDescOfSorted(s[1..], key);
      if |s| > 1 {
        assert AtLeast(key(s[0]), key(s[1]));
        assert s[1..][0] == s[1];
      }
      assert [s[0]] + s[1..] == s;
    }
  }

  lemma {:induction false} InsertPairwise<T>(x: T, s: seq<T>, key: T -> Key, R: (T, T) -> bool)
    requires SortedDesc(s, key) && Seqs.Pairwise(s, R)
    requires forall k :: 0 <= k < |s| ==> R(x, s[k]) && R(s[k], x)
    ensures Seqs.Pairwise(Insert(x, s, key), R)
    decreases |s|
  {
    if |s| > 0 && !AtLeast(key(x), key(s[0])) {
      assert SortedDesc(s[1..], key) && Seqs.Pairwise(s[1..], R) by {
        forall i, j | 0 <= i < j < |s[1..]|
          ensures AtLeast(key(s[1..][i]), key(s[1..][j])) && R(s[1..][i], s[1..][j])
        {
          assert s[1..][i] == s[i + 1] && s[1..][j] == s[j + 1];
        }
      }
      assert forall k :: 0 <= k < |s[1..]| ==> s[1..][k] == s[k + 1];
      InsertPairwise(x, s[1..], key, R);
      var rest := Insert(x, s[1..], key);
      forall k | 0 <= k < |rest| ensures R(s[0], rest[k]) {
        assert rest[k] in multiset(rest);
        if rest[k] != x {
          assert rest[k] in multiset(s[1..]);
          var m :| 0 <= m < |s[1..]| && s[1..][m] == rest[k];
          assert s[m + 1] == rest[k];
        }
      }
    }
  }

  /** Sorting keeps a property that every pair of distinct positions has, such as
      distinct identifiers. */
  lemma {:induction false} SortDescPairwise<T>(s: seq<T>, key: T -> Key, R: (T, T) -> bool)
    requires Seqs.Pairwise(s, R)
    requires forall i, j :: 0 <= i < |s| && 0 <= j < |s| ==> R(s[i], s[j]) == R(s[j], s[i])
    ensures Seqs.Pairwise(SortDesc(s, key), R)
    decreases |s|
  {
    if |s| > 0 {
      assert forall k :: 0 <= k < |s[1..]| ==> s[1..][k] == s[k + 1];
      SortDescPairwise(s[1..], key, R);
      var sorted := SortDesc(s[1..], key);
      forall k | 0 <= k < |sorted| ensures R(s[0], sorted[k]) && R(sorted[k], s[0]) {
        assert sorted[k] in multiset(sorted);
        assert sorted[k] in multiset(s[1..]);
        var m :| 0 <= m < |s[1..]| && s[1..][m] == sorted[k];
        assert s[m + 1] == sorted[k];
      }
      InsertPairwise(s[0], sorted, key, R);
    }
  }
}

=== FILE: text.dfy ===
/** Character-level string operations used by the forms and codecs: splitting on a
    separator (`components(separatedBy:)`), trimming (`trimmingCharacters(in:)`),
    single-character replacement (`replacingOccurrences(of:with:)`) and decimal rendering. */
module Text {
  import opened Wrappers

  /** A text field holding some non-empty text (`guard let t = field.text, !t.isEmpty`). */
  predicate Filled(text: Option<string>)
  {
    text.Some? && |text.value| > 0
  }

  /** How many times `c` occurs in `s`. */
  function Count(s: string, c: char): nat
    decreases |s|
  {
    if |s| == 0 then 0 else (if s[0] == c then 1 else 0) + Count(s[1..], c)
  }

  lemma {:induction false} CountAppend(a: string, b: string, c: char)
    ensures Count(a + b, c) == Count(a, c) + Count(b, c)
    decreases |a|
  {
    if |a| == 0 {
      assert a + b == b;
    } else {
      assert (a + b)[1..] == a[1..] + b;
      CountAppend(a[1..], b, c);
    }
  }

  lemma {:induction false} CountZero(s: string, c: char)
    ensures Count(s, c) == 0 <==> c !in s
    decreases |s|
  {
    if |s| > 0 {
      CountZero(s[1..], c);
      assert c in s <==> s[0] == c || c in s[1..];
    }
  }

  /** The parts joined back together with `sep` between consecutive parts. */
  function Join(parts: seq<string>, sep: char): string
    requires |parts| > 0
    decreases |parts|
  {
    if |parts| == 1 then parts[0] else parts[0] + [sep] + Join(parts[1..], sep)
  }

  /** The pieces of `s` between occurrences of `sep`; one more piece than separators,
      empty pieces kept (the empty string has one empty piece). */
  function Split(s: string, sep: char): (r: seq<string>)
    ensures |r| == Count(s, sep) + 1
    ensures forall i :: 0 <= i < |r| ==> sep !in r[i]
    ensures Join(r, sep) == s
    decreases |s|
  {
    if |s| == 0 then [""]
    else
      var rest := Split(s[1..], sep);
      if s[0] == sep then
        assert s == [sep] + s[1..];
        [""] + rest
      else
        var r := [[s[0]] + rest[0]] + rest[1..];
        assert r[1..] == rest[1..];
        assert s == [s[0]] + s[1..];
        assert |rest| > 1 ==> rest == [rest[0]] + rest[1..];
        r
  }

  /** Splitting a separator-free prefix off a string. */
  lemma {:induction false} SplitPrefix(x: string, rest: string, sep: char)
    requires sep !in x
    ensures Split(x + [sep] + rest, sep) == [x] + Split(rest, sep)
    decreases |x|
  {
    if |x| == 0 {
      assert x + [sep] + rest == [sep] + rest;
      assert ([sep] + rest)[1..] == rest;
    } else {
      assert (x + [sep] + rest)[1..] == x[1..] + [sep] + rest;
      SplitPrefix(x[1..], rest, sep);
      assert [x[0]] + x[1..] == x;
    }
  }

  lemma {:induction false} SplitNoSeparator(x: string, sep: char)
    requires sep !in x
    ensures Split(x, sep) == [x]
  {
    CountZero(x, sep);
  }

  /** Splitting inverts joining when no part contains the separator. */
  lemma {:induction false} SplitJoin(parts: seq<string>, sep: char)
    requires |parts| > 0
    requires forall i :: 0 <= i < |parts| ==> sep !in parts[i]
    ensures Split(Join(parts, sep), sep) == parts
    decreases |parts|
  {
    if |parts| == 1 {
      SplitNoSeparator(parts[0], sep);
    } else {
      SplitJoin(parts[1..], sep);
      SplitPrefix(parts[0], Join(parts[1..], sep), sep);
      assert [parts[0]] + parts[1..] == parts;
    }
  }

  /** The first piece of a split is the text before the first separator: a
      separator-free prefix that is either all of `s` or followed by `sep`. */
  lemma {:induction false} SplitFirstPiece(s: string, sep: char)
    ensures var first := Split(s, sep)[0];
      && first <= s
      && sep !in first
      && (|first| == |s| || s[|first|] == sep)
    decreases |s|
  {
    if |s| > 0 && s[0] != sep {
      SplitFirstPiece(s[1..], sep);
    }
  }

  /** `s` with its leading characters satisfying `strip` removed. */
  function TrimStart(s: string, strip: char -> bool): (r: string)
    ensures |r| <= |s| && r == s[|s| - |r|..]
    ensures forall k :: 0 <= k < |s| - |r| ==> strip(s[k])
    ensures |r| > 0 ==> !strip(r[0])
    decreases |s|
  {
    if |s| > 0 && strip(s[0]) then
      var r := TrimStart(s[1..], strip);
      assert s[1..][|s| - 1 - |r|..] == s[|s| - |r|..];
      assert forall k :: 1 <= k < |s| - |r| ==> s[k] == s[1..][k - 1];
      r
    else s
  }

  /** `s` with its trailing characters satisfying `strip` removed. */
  function TrimEnd(s: string, strip: char -> bool): (r: string)
    ensures |r| <= |s| && r == s[..|r|]
    ensures forall k :: |r| <= k < |s| ==> strip(s[k])
    ensures |r| > 0 ==> !strip(r[|r| - 1])
    decreases |s|
  {
    if |s| > 0 && strip(s[|s| - 1]) then TrimEnd(s[..|s| - 1], strip) else s
  }

  /** `s` with characters satisfying `strip` removed from both ends. */
  function Trim(s: string, strip: char -> bool): (r: string)
    ensures var i := |s| - |TrimStart(s, strip)|;
      && i + |r| <= |s| && r == s[i..i + |r|]
      && (forall k :: 0 <= k < i ==> strip(s[k]))
      && (forall k :: i + |r| <= k < |s| ==> strip(s[k]))
    ensures |r| > 0 ==> !strip(r[0]) && !strip(r[|r| - 1])
  {
    var left := TrimStart(s, strip);
    var r := TrimEnd(left, strip);
    TrimSlices(s, left, r, strip);
    r
  }

  lemma TrimSlices(s: string, left: string, r: string, strip: char -> bool)
    requires |left| <= |s| && left == s[|s| - |left|..]
    requires |r| <= |left| && r == left[..|r|]
    requires forall k :: |r| <= k < |left| ==> strip(left[k])
    ensures var i := |s| - |left|;
      && r == s[i..i + |r|]
      && (forall k :: i + |r| <= k < |s| ==> strip(s[k]))
  {
    var i := |s| - |left|;
    forall k | i + |r| <= k < |s|
      ensures strip(s[k])
    {
      assert s[k] == left[k - i];
    }
  }

  /** `s` with every `from` replaced by `to`. */
  function Replace(s: string, from: char, to: char): (r: string)
    ensures |r| == |s|
    ensures forall k :: 0 <= k < |s| ==> r[k] == if s[k] == from then to else s[k]
    decreases |s|
  {
    if |s| == 0 then [] else [if s[0] == from then to else s[0]] + Replace(s[1..], from, to)
  }

  /** `s` with every occurrence of `c` deleted. */
  function Remove(s: string, c: char): (r: string)
    ensures c !in r
    ensures |r| == |s| - Count(s, c)
    decreases |s|
  {
    if |s| == 0 then [] else (if s[0] == c then [] else [s[0]]) + Remove(s[1..], c)
  }

  predicate IsDigit(c: char)
  {
    48 <= c as int <= 57
  }

  function DigitChar(d: nat): char
    requires d < 10
  {
    ['0', '1', '2', '3', '4', '5', '6', '7', '8', '9'][d]
  }

  /** The number a string of decimal digits denotes. */
  function DecimalValue(s: string): nat
    requires forall k :: 0 <= k < |s| ==> IsDigit(s[k])
    decreases |s|
  {
    if |s| == 0 then 0
    else
      assert IsDigit(s[|s| - 1]);
      DecimalValue(s[..|s| - 1]) * 10 + (s[|s| - 1] as int - 48)
  }

  /** The decimal rendering of `n` (Swift's string interpolation of an `Int`). */
  function Decimal(n: nat): (r: string)
    ensures |r| > 0
    ensures forall k :: 0 <= k < |r| ==> IsDigit(r[k])
    ensures r[0] == '0' ==> n == 0 && r == "0"
    ensures r == "0" <==> n == 0
    ensures DecimalValue(r) == n
    decreases n
  {
    if n < 10 then [DigitChar(n)]
    else
      var r := Decimal(n / 10) + [DigitChar(n % 10)];
      assert r[..|r| - 1] == Decimal(n / 10);
      r
  }
}

=== FILE: transaction_form.dfy ===
/** The new-transaction form (Finances/Views/Transactions/AddTransactionViewController.swift):
    type buttons, the category picker, field editing rules, validation and the save
    decision. Layout and alerts' presentation are left out; an alert is its message. */
module TransactionForm {
  import opened Wrappers
  import opened Category
  import opened DataManager
  import Text

  datatype Field = TitleField | CategoryField | ValueField | DateField

  /** The chosen type and category and the text of the typed fields. The category
      field shows the chosen category's display name, or nothing. */
  datatype Form = Form(
    selectedType: Option<TxType>, selectedCategory: Option<Category>,
    titleText: Option<string>, valueText: Option<string>, dateText: Option<string>)

  const Initial: Form := Form(None, None, Some(""), Some(""), Some(""))

  /** The categories the picker offers: those of the chosen type, expense when none. */
  function Offered(f: Form): seq<Category>
  {
    CategoriesFor(f.selectedType.GetOr(Expense))
  }

  /** Income offers only Salary; expense, or no type yet, offers the four expense
      categories. */
  lemma OfferedValues(f: Form)
    ensures f.selectedType == Some(Income) ==> Offered(f) == [Salario]
    ensures f.selectedType != Some(Income) ==> Offered(f) == [Compras, Presente, Contas, Moradia]
  {
    CategoriesForValues();
    match f.selectedType
    case None => assert Offered(f) == CategoriesFor(Expense);
    case Some(t) => assert Offered(f) == CategoriesFor(t);
  }

  /** A chosen category is always one the picker currently offers. */
  ghost predicate Inv(f: Form)
  {
    f.selectedCategory.Some? ==> f.selectedCategory.value in Offered(f)
  }

  lemma InitialInv()
    ensures Inv(Initial)
  {
  }

  /** The category field's text (`updateCategoryTextField`). */
  function CategoryText(f: Form): (r: string)
    ensures r == "" <==> f.selectedCategory.None?
    ensures f.selectedCategory.Some? ==> r == DisplayName(f.selectedCategory.value)
  {
    match f.selectedCategory
    case None => ""
    case Some(c) => DisplayName(c)
  }

  /** `entradaButtonTapped`: choose income and forget the category. */
  function IncomeTapped(f: Form): (r: Form)
    ensures r.selectedType == Some(Income) && r.selectedCategory.None?
    ensures Offered(r) == [Salario]
    ensures r.titleText == f.titleText && r.valueText == f.valueText && r.dateText == f.dateText
    ensures Inv(r)
  {
    OfferedValues(f.(selectedType := Some(Income)));
    OfferedValues(f.(selectedType := Some(Expense)));
    f.(selectedType := Some(Income), selectedCategory := None)
  }

  /** `saidaButtonTapped`: choose expense and forget the category. */
  function ExpenseTapped(f: Form): (r: Form)
    ensures r.selectedType == Some(Expense) && r.selectedCategory.None?
    ensures Offered(r) == [Compras, Presente, Contas, Moradia]
    ensures r.titleText == f.titleText && r.valueText == f.valueText && r.dateText == f.dateText
    ensures Inv(r)
  {
    OfferedValues(f.(selectedType := Some(Income)));
    OfferedValues(f.(selectedType := Some(Expense)));
    f.(selectedType := Some(Expense), selectedCategory := None)
  }

  /** `pickerView(_:numberOfRowsInComponent:)`. */
  function NumberOfRows(f: Form): (r: nat)
    ensures r == |Offered(f)| && r > 0
    ensures r == if f.selectedType == Some(Income) then 1 else 4
  {
    OfferedValues(f);
    |Offered(f)|
  }

  /** `pickerView(_:titleForRow:forComponent:)`. */
  function TitleForRow(f: Form, row: nat): (r: string)
    requires row < NumberOfRows(f)
    ensures exists c :: c in Offered(f) && r == DisplayName(c)
    ensures r == DisplayName(Offered(f)[row])
    ensures f.selectedType == Some(Income) ==> r == DisplayName(Salario)
  {
    OfferedValues(f);
    DisplayName(Offered(f)[row])
  }

  /** `pickerView(_:didSelectRow:inComponent:)`: choose the category shown in that row. */
  function DidSelectRow(f: Form, row: nat): (r: Form)
    requires row < NumberOfRows(f)
    ensures r.selectedCategory.Some? && CategoryText(r) == TitleForRow(f, row)
    ensures TypeOf(r.selectedCategory.value) == f.selectedType.GetOr(Expense)
    ensures r.selectedType == f.selectedType
    ensures r.titleText == f.titleText && r.valueText == f.valueText && r.dateText == f.dateText
    ensures Inv(r)
  {
    f.(selectedCategory := Some(Offered(f)[row]))
  }

  /** `textFieldShouldBeginEditing` on the category field: the row the picker starts on. */
  function PickerStartRow(f: Form): (r: nat)
    ensures r < NumberOfRows(f)
    ensures f.selectedCategory.Some? && f.selectedCategory.value in Offered(f) ==>
      Offered(f)[r] == f.selectedCategory.value
    ensures f.selectedCategory.Some? ==> f.selectedCategory.value !in Offered(f)[..r]
    ensures f.selectedCategory.Some? && f.selectedCategory.value !in Offered(f) ==> r == 0
    ensures f.selectedCategory.None? ==> r == 0
  {
    match f.selectedCategory
    case None => 0
    case Some(c) => IndexIn(Offered(f), c)
  }

  /** The position of `c` in `cs` (`firstIndex(of:)`), 0 when absent. */
  function IndexIn(cs: seq<Category>, c: Category): (r: nat)
    ensures |cs| > 0 ==> r < |cs|
    ensures c in cs ==> cs[r] == c
    ensures c !in cs ==> r == 0
    ensures c !in cs[..r]
    decreases |cs|
  {
    if |cs| == 0 || cs[0] == c then 0
    else if c in cs[1..] then 1 + IndexIn(cs[1..], c)
    else 0
  }

  /** `textField(_:shouldChangeCharactersIn:replacementString:)`: typing is refused in the
      date and category fields, which are filled by their pickers. */
  function ShouldChangeCharacters(field: Field): (r: bool)
    ensures r <==> field == TitleField || field == ValueField
  {
    !(field == DateField || field == CategoryField)
  }

  /** `textFieldDidEndEditing`: an empty date field takes the picker's date, an empty
      category field takes the first offered category. `pickerDateText` is the date
      picker's value as the form formats it. */
  function DidEndEditing(f: Form, field: Field, pickerDateText: string): (r: Form)
    ensures Inv(f) ==> Inv(r)
    ensures field == CategoryField && f.selectedCategory.None? ==> r.selectedCategory == Some(Offered(f)[0])
    ensures field == DateField && !Text.Filled(f.dateText) ==> r.dateText == Some(pickerDateText)
    ensures r.selectedType == f.selectedType
    ensures r.titleText == f.titleText && r.valueText == f.valueText
    ensures !(field == CategoryField && f.selectedCategory.None?) ==> r.selectedCategory == f.selectedCategory
    ensures !(field == DateField && !Text.Filled(f.dateText)) ==> r.dateText == f.dateText
  {
    if field == DateField && !Text.Filled(f.dateText) then f.(dateText := Some(pickerDateText))
    else if field == CategoryField && CategoryText(f) == "" then
      var cs := Offered(f);
      if |cs| > 0 then f.(selectedCategory := Some(cs[0])) else f
    else f
  }

  datatype Validation = Accepted | Invalid(message: string)

  const TitleMessage: string := "Please enter a title for the transaction"
  const AmountMessage: string := "Please enter a valid amount"
  const CategoryMessage: string := "Please select a category"

  /** The amount as the form reads it: a decimal comma is taken as a point before the
      text is parsed by `parseDouble`. */
  function ParseAmount(text: string, parseDouble: string -> Option<real>): (r: Option<real>)
    ensures ',' !in text ==> r == parseDouble(text)
  {
    assert ',' !in text ==> Text.Replace(text, ',', '.') == text;
    parseDouble(Text.Replace(text, ',', '.'))
  }

  /** A decimal comma and a decimal point read the same: changing one comma of the
      typed text into a point does not change the amount. */
  lemma CommaReadsAsPoint(text: string, k: nat, parseDouble: string -> Option<real>)
    requires k < |text| && text[k] == ','
    ensures ParseAmount(text[k := '.'], parseDouble) == ParseAmount(text, parseDouble)
  {
    assert Text.Replace(text[k := '.'], ',', '.') == Text.Replace(text, ',', '.');
  }

  /** `validateForm()`: title, then amount, then category; the first failure decides. */
  function ValidateForm(f: Form, parseDouble: string -> Option<real>): (r: Validation)
    ensures r == Accepted <==>
      Text.Filled(f.titleText) && Text.Filled(f.valueText)
      && ParseAmount(f.valueText.value, parseDouble).Some? && f.selectedCategory.Some?
    ensures !Text.Filled(f.titleText) ==> r == Invalid(TitleMessage)
    ensures Text.Filled(f.titleText) && !(Text.Filled(f.valueText) && ParseAmount(f.valueText.value, parseDouble).Some?)
      ==> r == Invalid(AmountMessage)
    ensures (Text.Filled(f.titleText) && Text.Filled(f.valueText) && ParseAmount(f.valueText.value, parseDouble).Some?
             && f.selectedCategory.None?) ==> r == Invalid(CategoryMessage)
  {
    if !Text.Filled(f.titleText) then Invalid(TitleMessage)
    else if !Text.Filled(f.valueText) || ParseAmount(f.valueText.value, parseDouble).None? then Invalid(AmountMessage)
    else if f.selectedCategory.None? then Invalid(CategoryMessage)
    else Accepted
  }

  const NoBudgetMessage: string := "Unable to find current budget"
  const NoTypeMessage: string := "Please select a transaction type (Income/Expense)."

  /** What a tap on Save ends in: an alert, or a recorded transaction with whether a
      same-day reminder was attempted. */
  datatype SaveOutcome = Alerted(message: string) | Saved(transaction: Transaction, reminderAttempted: bool)

  /** `saveButtonTapped()`. `month`/`year` are the current calendar month, `date` is the
      date picker's value and `dateIsToday` whether it falls on the current day. */
  function Save(f: Form, st: Store, auth: Option<string>, parseDouble: string -> Option<real>,
                month: int, year: int, date: Date, dateIsToday: bool): (r: (SaveOutcome, Store))
    ensures r.0.Saved? <==>
      ValidateForm(f, parseDouble) == Accepted && GetCurrentUserBudget(st, auth, month, year).Some?
      && f.selectedType.Some?
    ensures r.0.Alerted? ==> r.1 == st
    ensures ValidateForm(f, parseDouble).Invalid? ==> r.0 == Alerted(ValidateForm(f, parseDouble).message)
    ensures ValidateForm(f, parseDouble) == Accepted && GetCurrentUserBudget(st, auth, month, year).None?
      ==> r.0 == Alerted(NoBudgetMessage)
    ensures (ValidateForm(f, parseDouble) == Accepted && GetCurrentUserBudget(st, auth, month, year).Some?
             && f.selectedType.None?) ==> r.0 == Alerted(NoTypeMessage)
    ensures r.0.Saved? ==>
      var t := r.0.transaction;
      && r.1.transactions == st.transactions + [t]
      && r.1.budgets == st.budgets
      && t.budgetId == GetCurrentUserBudget(st, auth, month, year).value.id
      && t.title == f.titleText.value && t.date == date
      && Some(t.amount) == ParseAmount(f.valueText.value, parseDouble)
      && t.category == RawValue(f.selectedCategory.value)
      && t.txType == TypeRaw(f.selectedType.value)
      && (r.0.reminderAttempted <==> f.selectedType.value == Expense && dateIsToday)
    ensures r.0.Saved? ==> r.1.users == st.users && r.1.nextId == st.nextId + 1
    ensures r.0.Saved? && Valid(st) ==> forall x :: x in st.transactions ==> x.id != r.0.transaction.id
    ensures Valid(st) ==> Valid(r.1)
  {
    match ValidateForm(f, parseDouble)
    case Invalid(message) => (Alerted(message), st)
    case Accepted =>
      match GetCurrentUserBudget(st, auth, month, year)
      case None => (Alerted(NoBudgetMessage), st)
      case Some(budget) =>
        var value := ParseAmount(f.valueText.value, parseDouble).GetOr(0.0);
        var category := f.selectedCategory.value;
        match f.selectedType
        case None => (Alerted(NoTypeMessage), st)
        case Some(txType) =>
          var (st', t) := CreateTransaction(st, f.titleText.value, value, RawValue(category), txType, date, budget);
          (Saved(t.value, txType == Expense && dateIsToday), st')
  }

  /** The user's actions on the form. A picker row is the index UIKit reports, which may
      lie past the offered list when the picker still shows rows cached for the other
      type: the controller never reloads the picker after a type tap. */
  datatype Event = TapIncome | TapExpense | SelectRow(row: nat) | EndEditing(field: Field, pickerDateText: string)

  /** One event applied to the form. `None` is the trap of `categories[row]` on a row
      past the offered list; every other event yields the next form. */
  function Step(f: Form, e: Event): (r: Option<Form>)
    ensures r.None? <==> e.SelectRow? && e.row >= |Offered(f)|
    ensures r.Some? && Inv(f) ==> Inv(r.value)
  {
    match e
    case TapIncome => Some(IncomeTapped(f))
    case TapExpense => Some(ExpenseTapped(f))
    case SelectRow(row) => if row < NumberOfRows(f) then Some(DidSelectRow(f, row)) else None
    case EndEditing(field, text) => Some(DidEndEditing(f, field, text))
  }

  /** A sequence of events; `None` once one of them traps. */
  function Run(f: Form, events: seq<Event>): (r: Option<Form>)
    ensures r.Some? && Inv(f) ==> Inv(r.value)
    ensures |events| == 0 ==> r == Some(f)
    decreases |events|
  {
    if |events| == 0 then Some(f)
    else
      match Step(f, events[0])
      case None => None
      case Some(g) => Run(g, events[1..])
  }

  /** With income chosen only row 0 exists, so any later row traps; rows 1 to 3 are the
      ones a picker still showing the expense list can report. */
  lemma StaleExpenseRowTraps(f: Form, row: nat)
    requires 1 <= row
    ensures Run(f, [TapExpense, TapIncome, SelectRow(row)]).None?
  {
    var two := [TapIncome, SelectRow(row)];
    RunCons(f, TapExpense, two);
    IncomeThenRowTraps(Step(f, TapExpense).value, row);
    assert [TapExpense] + two == [TapExpense, TapIncome, SelectRow(row)];
  }

  lemma RunCons(f: Form, e: Event, rest: seq<Event>)
    requires Step(f, e).Some?
    ensures Run(f, [e] + rest) == Run(Step(f, e).value, rest)
  {
    assert ([e] + rest)[0] == e && ([e] + rest)[1..] == rest;
  }

  lemma IncomeThenRowTraps(g: Form, row: nat)
    requires 1 <= row
    ensures Run(g, [TapIncome, SelectRow(row)]).None?
  {
    var h := IncomeTapped(g);
    var two := [TapIncome, SelectRow(row)];
    assert Step(h, SelectRow(row)) == None;
    assert Run(h, [SelectRow(row)]) == None;
    assert two[1..] == [SelectRow(row)] && Step(g, TapIncome) == Some(h);
  }

  /** Starting from the initial form, any sequence of taps, picker selections and field
      edits that does not trap keeps the chosen category among the offered ones. */
  lemma {:induction false} InvariantAlwaysHolds(events: seq<Event>)
    ensures var r := Run(Initial, events);
      r.Some? && r.value.selectedCategory.Some? ==>
        r.value.selectedCategory.value in CategoriesFor(r.value.selectedType.GetOr(Expense))
  {
    InitialInv();
  }
}

=== FILE: transactions_model.dfy ===
/** The transaction list view model (Finances/ViewModels/TransactionsViewModel.swift). */
module TransactionsModel {
  import opened Wrappers
  import opened DataManager
  import Seqs
  import Sorting
  import Text

  datatype TransactionsVM = TransactionsVM(transactions: seq<Transaction>, isEmpty: bool)

  const Initial: TransactionsVM := TransactionsVM([], true)

  /** `loadTransactions(for:)`: the budget's transactions newest first, or nothing
      without a budget. */
  function LoadTransactions(vm: TransactionsVM, st: Store, budget: Option<Budget>): (r: TransactionsVM)
    ensures r.isEmpty <==> |r.transactions| == 0
    ensures budget.None? ==> r.transactions == []
    ensures budget.Some? ==> forall t :: t in r.transactions <==> t in st.transactions && t.budgetId == budget.value.id
    ensures budget.Some? ==> multiset(r.transactions) == multiset(Seqs.Filter(st.transactions, LinkedTo(budget.value.id)))
    ensures forall i, j :: 0 <= i < j < |r.transactions| ==> r.transactions[i].date >= r.transactions[j].date
  {
    match budget
    case None => TransactionsVM([], true)
    case Some(b) =>
      var ts := GetTransactions(st, b);
      TransactionsVM(ts, |ts| == 0)
  }

  /** `deleteTransaction(_:completion:)`: delete in the store and drop the first local
      transaction with the same id; the empty flag follows the list. */
  function DeleteTransaction(vm: TransactionsVM, st: Store, t: Transaction): (r: (TransactionsVM, Store))
    ensures r.1 == DataManager.DeleteTransaction(st, t)
    ensures Seqs.FirstIndex(vm.transactions, TxIdIs(t.id)).None? ==> r.0.transactions == vm.transactions
    ensures Seqs.FirstIndex(vm.transactions, TxIdIs(t.id)).Some? ==>
      var i := Seqs.FirstIndex(vm.transactions, TxIdIs(t.id)).value;
      && vm.transactions[i].id == t.id
      && (forall j :: 0 <= j < i ==> vm.transactions[j].id != t.id)
      && r.0.transactions == vm.transactions[..i] + vm.transactions[i + 1..]
    ensures r.0.isEmpty <==> |r.0.transactions| == 0
  {
    var ts := Seqs.RemoveFirst(vm.transactions, TxIdIs(t.id));
    (TransactionsVM(ts, |ts| == 0), DataManager.DeleteTransaction(st, t))
  }

  /** After loading from a valid store, deleting a listed transaction removes exactly
      that row from the list and the record from the store. */
  lemma DeleteListedTransaction(vm: TransactionsVM, st: Store, b: Budget, i: nat)
    requires Valid(st)
    requires vm == LoadTransactions(Initial, st, Some(b))
    requires i < |vm.transactions|
    ensures var r := DeleteTransaction(vm, st, vm.transactions[i]);
      && r.0.transactions == vm.transactions[..i] + vm.transactions[i + 1..]
      && vm.transactions[i] !in r.1.transactions
      && |r.0.transactions| == |vm.transactions| - 1
  {
    LoadedTransactionsDistinct(st, b);
    RemoveListedTransaction(vm.transactions, i);
  }

  /** A budget's transactions, loaded from a valid store, have distinct ids. */
  lemma LoadedTransactionsDistinct(st: Store, b: Budget)
    requires Valid(st)
    ensures Seqs.Pairwise(GetTransactions(st, b), DistinctTransactions)
  {
    var linked := Seqs.Filter(st.transactions, LinkedTo(b.id));
    Seqs.FilterPairwise(st.transactions, LinkedTo(b.id), DistinctTransactions);
    Sorting.SortDescPairwise(linked, TxKey, DistinctTransactions);
  }

  /** In a list without repeated ids, removing the first entry with the id of entry `i`
      removes entry `i`. */
  lemma RemoveListedTransaction(ts: seq<Transaction>, i: nat)
    requires Seqs.Pairwise(ts, DistinctTransactions)
    requires i < |ts|
    ensures Seqs.RemoveFirst(ts, TxIdIs(ts[i].id)) == ts[..i] + ts[i + 1..]
  {
    forall j | 0 <= j < i ensures !TxIdIs(ts[i].id)(ts[j]) {
      assert DistinctTransactions(ts[j], ts[i]);
    }
    Seqs.FirstIndexAt(ts, TxIdIs(ts[i].id), i);
  }

  /** `transactionsCount`: the list length in decimal, without leading zeros. */
  function TransactionsCount(vm: TransactionsVM): (r: string)
    ensures |r| > 0 && forall k :: 0 <= k < |r| ==> Text.IsDigit(r[k])
    ensures r[0] == '0' ==> r == "0"
    ensures Text.DecimalValue(r) == |vm.transactions|
  {
    Text.Decimal(|vm.transactions|)
  }

  /** `hasTransactions`: the count shown is not "0". */
  function HasTransactions(vm: TransactionsVM): (r: bool)
    ensures r <==> TransactionsCount(vm) != "0"
    ensures r <==> vm.transactions != []
  {
    |vm.transactions| > 0
  }
}

=== FILE: user_profile.dfy ===
/** The profile screen's state (Finances/ViewModels/UserProfileViewModel.swift): the
    name shown, the picture shown, and replacing the picture. Image files live on disk,
    so reading and writing them are parameters; a picture is only compared, never
    decoded. */
module UserProfile {
  import opened Wrappers
  import Text
  import DataManager

  /** The fallback system symbol, or a picture read from or written to disk. */
  datatype Picture = PersonCircle | Photo(bytes: seq<int>)

  datatype ProfileVM = ProfileVM(userName: string, profileImage: Option<Picture>)

  const DefaultName: string := "User"

  const Initial: ProfileVM := ProfileVM(DefaultName, None)

  /** `getCurrentUserEmail()`: not yet connected to authentication, so always absent. */
  function CurrentUserEmail(): (r: Option<string>)
    ensures r.None?
  {
    None
  }

  /** The part of an e-mail address before its first '@'. */
  function LocalPart(email: string): (r: string)
    ensures r <= email && '@' !in r
    ensures |r| == |email| || email[|r|] == '@'
  {
    Text.SplitFirstPiece(email, '@');
    Text.Split(email, '@')[0]
  }

  /** `loadUserName()`: a non-empty saved name wins; otherwise an e-mail address gives
      its capitalised local part; otherwise the name stays as it was. */
  function LoadUserName(vm: ProfileVM, savedName: Option<string>, email: Option<string>,
                        capitalize: string -> string): (r: ProfileVM)
    ensures r.profileImage == vm.profileImage
    ensures Text.Filled(savedName) ==> r.userName == savedName.value
    ensures !Text.Filled(savedName) && email.Some? ==>
      exists k :: 0 <= k <= |email.value| && r.userName == capitalize(email.value[..k])
        && '@' !in email.value[..k] && (k == |email.value| || email.value[k] == '@')
    ensures !Text.Filled(savedName) && email.None? ==> r == vm
  {
    if Text.Filled(savedName) then vm.(userName := savedName.value)
    else if email.Some? then
      var local := LocalPart(email.value);
      assert local == email.value[..|local|];
      vm.(userName := capitalize(local))
    else vm
  }

  /** With no e-mail source the shown name is the saved one when it is non-empty and
      "User" otherwise; an empty saved name never replaces the default. */
  lemma LoadedNameWithoutEmail(savedName: Option<string>, capitalize: string -> string)
    ensures var name := LoadUserName(Initial, savedName, CurrentUserEmail(), capitalize).userName;
      |name| > 0 && (name == DefaultName <==> !Text.Filled(savedName) || savedName.value == DefaultName)
  {
  }

  /** `loadProfileImage()`: the stored user's picture file when it exists and can be
      read; the "person.circle.fill" symbol otherwise. */
  function LoadProfileImage(vm: ProfileVM, st: DataManager.Store,
                            readImage: string -> Option<Picture>): (r: ProfileVM)
    ensures r.userName == vm.userName && r.profileImage.Some?
    ensures var u := DataManager.FetchUser(st);
      u.Some? && u.value.profileImageFilename.Some? && readImage(u.value.profileImageFilename.value).Some? ==>
        r.profileImage == readImage(u.value.profileImageFilename.value)
    ensures var u := DataManager.FetchUser(st);
      !(u.Some? && u.value.profileImageFilename.Some? && readImage(u.value.profileImageFilename.value).Some?) ==>
        r.profileImage == Some(PersonCircle)
  {
    var u := DataManager.FetchUser(st);
    if u.Some? && u.value.profileImageFilename.Some? && readImage(u.value.profileImageFilename.value).Some? then
      vm.(profileImage := readImage(u.value.profileImageFilename.value))
    else vm.(profileImage := Some(PersonCircle))
  }

  /** `loadUserData()`: the name, then the picture. */
  function LoadUserData(vm: ProfileVM, st: DataManager.Store, savedName: Option<string>,
                        capitalize: string -> string, readImage: string -> Option<Picture>): (r: ProfileVM)
    ensures r.userName == LoadUserName(vm, savedName, CurrentUserEmail(), capitalize).userName
    ensures r.profileImage == LoadProfileImage(vm, st, readImage).profileImage
  {
    LoadProfileImage(LoadUserName(vm, savedName, CurrentUserEmail(), capitalize), st, readImage)
  }

  /** `updateProfileImage(_:)`: `savedFilename` is what writing the picture to disk
      produced. On a failed write nothing changes; otherwise the user record points at
      the new file and the screen shows the new picture. */
  function UpdateProfileImage(vm: ProfileVM, st: DataManager.Store, image: Picture,
                              savedFilename: Option<string>): (r: (ProfileVM, DataManager.Store))
    ensures savedFilename.None? ==> r == (vm, st)
    ensures savedFilename.Some? ==>
      && r.0 == vm.(profileImage := Some(image))
      && DataManager.FetchUser(r.1).Some?
      && DataManager.FetchUser(r.1).value.profileImageFilename == savedFilename
      && DataManager.FetchUser(r.1).value.id.Some?
      && r.1.budgets == st.budgets && r.1.transactions == st.transactions
    ensures DataManager.Valid(st) ==> DataManager.Valid(r.1)
  {
    if savedFilename.None? then (vm, st)
    else (vm.(profileImage := Some(image)), DataManager.UpdateUserProfileImage(st, savedFilename.value).0)
  }

  /** Round trip: once a picture is saved under a file that reads back as that picture,
      loading the profile shows it again. */
  lemma UpdateThenLoad(vm: ProfileVM, st: DataManager.Store, image: Picture, filename: string,
                       readImage: string -> Option<Picture>)
    requires readImage(filename) == Some(image)
    ensures var (vm', st') := UpdateProfileImage(vm, st, image, Some(filename));
      LoadProfileImage(vm', st', readImage).profileImage == Some(image)
  {
  }
}

=== FILE: wrappers.dfy ===
/** Optional values, standing in for Swift optionals (`T?`). */
module Wrappers {

  datatype Option<+T> = None | Some(value: T) {

    /** The wrapped value, or `default` when there is none (Swift's `??`). */
    function GetOr(default: T): T
    {
      match this
      case Some(v) => v
      case None => default
    }
  }
}
